=== FILE: README.md ===
# draft_kings_client in Dafny

A model of the odds harvester in `draft_kings_client`. It covers three parts:

- **`Authenticator`**: anonymous JWT acquisition. Up to three requests to the token endpoint, sleeping 2 s and then 4 s between attempts. The token is extracted with `re.search(r'"token":"(.*?)"', text)`. The token is memoised in `jwt_token`, and the eight-entry header dict built from it is memoised in `headers`.
- **`DraftKingsOddsClient`**:
  - selection-id extraction from the enumeration response;
  - per-selection normalisation of a detail document into an odds record. This covers the presence guard, the `try` block that catches only `KeyError`, the `startDate` split on `'T'` and then `'.'`, the `.get` defaults, and the UTC timestamp with its last digit replaced by `Z`;
  - the harvest loop over all ids;
  - the rows `_write_to_file` hands to `csv.DictWriter`.
- **`OddsModel`**: the twelve-column record, `to_dict` and `get_fieldnames`.

Python's behaviour on JSON values is modelled explicitly (`PyJson`). This covers truthiness, `in`, `[key]`, `[0]` and `.get`. Each operation returns `Err` with the exception class Python would raise: `KeyError`, `IndexError`, `TypeError`, `ValueError` or `AttributeError`. Each selection ends in one of three outcomes:

- a record;
- a skip, when the guard fails or a `KeyError` is caught;
- an abort, when any other exception escapes `get_football_markets`.

External effects are parameters:

- **The token endpoint** is an oracle `Network = nat -> Attempt`. The k-th request of an acquisition either raises or returns a status and a body.
- **The enumeration response and each detail fetch** are `Option<Json>` values. `None` stands for a `RequestException`, which the client catches.
- **The clock** is `clock(i)`, the UTC instant read while normalising the i-th id.
- **Sleeps** are recorded as a list of durations in seconds.

Modules: `Wrappers` (Option/Result), `PyStr` (split, join, zero-padded digits), `PyJson`, `OddsModel`, `Authenticator`, `Client`.

The model follows the code, including where it does less than an odds harvester would be expected to do:

- The guard tests key presence only. An empty `events` list therefore raises `IndexError`, and a `startDate` without exactly one `'T'` raises `ValueError`. Both escape the harvest instead of rejecting one record.
- The code has a single category, no polling loop, and writes in truncating mode. No `line` tag is supplied (see Findings).
- With no selection ids, the code returns before `_write_to_file` is called.

## Model

| member | source | states |
|---|---|---|
| PyJson.Contains | draft_kings_client/client.py:84 | `key in v` is key membership for a dict, element membership for a list and a substring test for a string; a non-container raises TypeError, and exactly non-containers raise |
| PyJson.Subscript | draft_kings_client/client.py:92-97 | `v[key]` succeeds exactly on a dict holding `key` and yields its value; a dict without the key raises KeyError, anything else TypeError |
| PyJson.First | draft_kings_client/client.py:92-99 | `v[0]` yields the head of a non-empty list or the first character of a non-empty string; an empty list or string raises IndexError, a dict KeyError, and null, a number or a bool TypeError |
| PyJson.Get | draft_kings_client/client.py:94-99 | `.get(key, default)` succeeds exactly on dicts, returning the stored value or the default; anything else raises AttributeError |
| PyStr.Count | draft_kings_client/client.py:92 | the number of separators is at most the length and is zero exactly when the separator does not occur |
| PyStr.Split | draft_kings_client/client.py:92-93 | `str.split(c)` gives one more piece than separators, no piece holds `c`, and joining the pieces with `c` restores the string |
| PyStr.SplitFirstPiece | draft_kings_client/client.py:93 | `split(c)[0]` is a prefix: the whole string when `c` is absent, else the text right before the first `c` |
| PyStr.SplitAfterFreePrefix | draft_kings_client/client.py:92 | splitting `a + c + b` with `c` not in `a` gives `a` followed by the pieces of `b` |
| PyStr.Pad | draft_kings_client/client.py:98 | a zero-padded `strftime` field has exactly `width` characters, all digits |
| PyStr.PadDecimalValue | draft_kings_client/client.py:98 | a padded field reads back as the number it was made from (when the number fits the width) |
| Authenticator.ClosingQuote | draft_kings_client/authenticator.py:44 | the lazy group `(.*?)"` closes at the first quote reached without crossing a newline, and at no earlier position |
| Authenticator.ClosingQuoteAt | draft_kings_client/authenticator.py:44 | any quote reached from the group start without a quote or newline in between is the closing one |
| Authenticator.FindFrom | draft_kings_client/authenticator.py:44 | the search returns a match with no match at any earlier position, and none when no position matches |
| Authenticator.ExtractTokenIsLeftmostMatch | draft_kings_client/authenticator.py:44-47 | the token is the group of the leftmost match, holds no quote or newline, and is absent exactly when the pattern matches nowhere |
| Authenticator.TokenBodyExtracted | draft_kings_client/authenticator.py:44-47 | a body `{"token":"t"}` yields `t` whenever `t` holds no quote or newline |
| Authenticator.RetryLoop | draft_kings_client/authenticator.py:38-69 | the loop stops at the first attempt yielding a token and every earlier attempt failed; it sleeps a doubling delay after each failed attempt except the last; without a token all attempts were made |
| Authenticator.GenerateJwtToken | draft_kings_client/authenticator.py:33-72 | 1 to 3 requests; sleeps are `[2, 4]` cut to one fewer than the requests; every attempt before the last failed; the token is the last attempt's; no token exactly when all three attempts fail, and then exactly three requests with sleeps of 2 s and 4 s |
| Authenticator.TotalSleep | draft_kings_client/authenticator.py:66-69 | the total sleep is at most 6 s, and exactly 6 s iff a third request is made |
| Authenticator.AlwaysFailingEndpoint | draft_kings_client/tests/test_authenticator.py:22-31 | an endpoint always answering a non-200 status gives no token after three requests and sleeps of 2 and 4 s |
| Authenticator.MockedTokenExtracted | draft_kings_client/tests/test_authenticator.py:12-18 | the mocked body `{"token":"mocked_token"}` yields `mocked_token` |
| Authenticator.MockedTokenRun | draft_kings_client/tests/test_authenticator.py:8-19 | with the mocked 200 response, one request and no sleep give `mocked_token`, and a fresh authenticator's `jwt_token` returns it |
| Authenticator.NewAuth | draft_kings_client/authenticator.py:11-15 | a new authenticator has no token and caches the headers it was given |
| Authenticator.JwtToken | draft_kings_client/authenticator.py:27-31 | a usable cached token is returned with no request; otherwise one acquisition of 1 to 3 requests runs with exactly that acquisition's requests and sleeps, only a token it obtains is cached, the headers cache is untouched, and the value read is the cache's |
| Authenticator.HeaderNames | draft_kings_client/authenticator.py:79-88 | eight distinct header names, `Authorization` first |
| Authenticator.BuildHeaders | draft_kings_client/authenticator.py:79-88 | the header dict has exactly eight entries, `Authorization` is `Bearer ` plus the token, and every listed header holds its fixed value |
| Authenticator.Headers | draft_kings_client/authenticator.py:74-93 | cached non-empty headers are returned with no request; otherwise the token is read through `jwt_token`, with exactly that read's requests, sleeps and resulting token; headers are present exactly when that read gives a usable token, and are then the eight headers built from it, cached and returned; otherwise nothing is cached and the old value is returned |
| Authenticator.CachedTokenIsStable | draft_kings_client/authenticator.py:29-31 | with a usable token cached, every later read returns it with no request and no state change |
| Authenticator.TokenMemoised | draft_kings_client/authenticator.py:27-31 | once a read yields a non-empty token, every later read returns the same token with no request |
| Authenticator.EmptyTokenIsReacquired | draft_kings_client/authenticator.py:44-48 | an empty token string is returned and cached, but it is falsy, so the next read requests again |
| Authenticator.HeadersMemoised | draft_kings_client/authenticator.py:22-25 | headers read successfully are returned by the next read with no request |
| Authenticator.HeadersRetriedAfterFailure | draft_kings_client/authenticator.py:75-77 | a failed header generation caches nothing, so the next read requests a token again |
| OddsModel.FieldNames | draft_kings_client/models/odds_model.py:80-86 | twelve distinct column names, `sportsbook` first, `suspended` and `line` last |
| OddsModel.ToDict | draft_kings_client/models/odds_model.py:64-78 | the dict literal's keys are exactly the names `get_fieldnames` lists, and each maps to that column's accessor value |
| OddsModel.ToDictInjective | draft_kings_client/models/odds_model.py:64-78 | two records with equal dicts are equal: `to_dict` loses no field |
| Client.IdsOf | draft_kings_client/client.py:35 | the ids are each element's `id`, in order, one per element; the first element without one raises its exception (KeyError for a dict, TypeError otherwise) |
| Client.FetchSelectionIds | draft_kings_client/client.py:29-38 | a failed request gives `[]`; a non-object body raises AttributeError; a missing `selections` gives `[]`; a list gives its elements' ids; an empty dict or string gives `[]` and any other value raises TypeError |
| Client.Incomplete | draft_kings_client/client.py:84-86 | the guard skips a missing or falsy document and an object missing any of the three keys; a truthy non-container raises TypeError, and exactly those raise |
| Client.SplitStartDate | draft_kings_client/client.py:92 | unpacking succeeds exactly on a string with one 'T', giving 'T'-free parts that rejoin to it; otherwise ValueError, or AttributeError for a non-string |
| Client.StartDateHalves | draft_kings_client/client.py:92 | `date + "T" + rest` with no other 'T' unpacks into exactly `date` and `rest` |
| Client.GameTime | draft_kings_client/client.py:93 | the game time holds no '.', is all of the text when it has no '.', and is otherwise the text before the first '.' |
| Client.TimeRetrievedLayout | draft_kings_client/client.py:98 | the timestamp is 26 characters `YYYY-MM-DDTHH:MM:SS.fffffZ`: fixed separators, each field zero-padded, five fraction digits (the microseconds' first five) and a trailing `Z` |
| Client.TimeRetrievedDecodes | draft_kings_client/client.py:98 | each field of the timestamp reads back as the clock's year, month, day, hour, minute, second and microseconds/10 |
| Client.ReadEvent | draft_kings_client/client.py:92-94 | the event reads succeed exactly when the first event is an object with a string `startDate` holding one 'T' |
| Client.ReadLabels | draft_kings_client/client.py:95-97 | the label and price reads succeed exactly when the first market and selection are objects and the selection's `displayOdds` is an object |
| Client.ReadFields | draft_kings_client/client.py:92-99 | all field reads succeed exactly on well-formed documents |
| Client.Settle | draft_kings_client/client.py:84-107 | a guard exception aborts with that exception; an incomplete document is skipped; past the guard, a successful build is recorded, a builder KeyError skips, and any other builder exception aborts with it, so the `KeyError` handler is the only path from an exception to a skip and an abort never carries KeyError |
| Client.Process | draft_kings_client/client.py:81-107 | a guard TypeError aborts; a missing document, or one without a required key, is skipped; past the guard, a field read raising KeyError skips and any other exception aborts with it; when every read succeeds a record results, carrying the supplied `line` and the timestamp of its clock reading |
| Client.ProcessAsWritten | draft_kings_client/client.py:101-104 | as written, no document ever yields a record: a document whose reads all succeed aborts with TypeError, and a document the corrected step does not record has the same outcome in both |
| Client.RecordedIffWellFormed | draft_kings_client/client.py:84-107 | a document yields a record exactly when it is well formed |
| Client.RecordContents | draft_kings_client/client.py:88-104 | the record's constants, the date and time recovered from `startDate`, each label read with its documented default, the price, the suspension flag defaulting to false, the timestamp and the line |
| Client.EmptyEventsAborts | draft_kings_client/client.py:84-92 | an empty `events` list passes the guard and raises IndexError, aborting the harvest |
| Client.ScalarEventsAborts | draft_kings_client/client.py:84-92 | an `events` value that is null, a number or a bool passes the guard and raises TypeError at `[0]`, aborting the harvest |
| Client.MissingStartDateSkips | draft_kings_client/client.py:92-107 | a first event without `startDate` skips just this selection |
| Client.BadStartDateAborts | draft_kings_client/client.py:92 | a `startDate` without exactly one 'T' raises ValueError, aborting the harvest |
| Client.MissingDisplayOddsSkips | draft_kings_client/client.py:97-107 | a first selection without `displayOdds` skips just this selection |
| Client.ConstructorArityAborts | draft_kings_client/client.py:101-104 | wherever the corrected step records, the step as written aborts with TypeError; elsewhere the two agree |
| Client.GetFootballMarkets | draft_kings_client/client.py:72-110 | an id-extraction exception escapes before any fetch; no ids returns `[]` unwritten; otherwise the loop result holds and exactly a completed loop writes its records |
| Client.HarvestLoop | draft_kings_client/client.py:81-107 | it fails exactly when some id aborts, having fetched in order up to that first abort; otherwise it fetches every id once, in order, with records in id order, at most one per id, and every unrecorded id skipped |
| Client.AllRecorded | draft_kings_client/client.py:81-104 | when every id records, the result has one record per id and the i-th record is the i-th id's |
| Client.DictRow | draft_kings_client/client.py:67 | `writerow` raises ValueError for a key outside the header, and otherwise gives one cell per header name: the dict's value for that name, or `""` when the name is missing |
| Client.DictRowOfRecord | draft_kings_client/client.py:60-67 | a record's dict fits its class's header exactly, so `writerow` accepts it and writes its columns in order |
| Client.WriteRowsFits | draft_kings_client/client.py:66-67 | dicts that all fit the header are written without an exception, one row each, in order |
| Client.WriteRecordRows | draft_kings_client/client.py:63-67 | the records' dicts are written as one data row per record, holding that record's cells |
| Client.WriteToFile | draft_kings_client/client.py:53-70 | nothing is written for an empty list; otherwise the header, then one row per record in order, each holding the record's value for every column |
| Client.SampleListingIds | draft_kings_client/tests/test_draft_kings_odds_client.py:14-23 | the mocked enumeration gives the ids `12345` and `67890`, in order |
| Client.SampleStartDate | draft_kings_client/tests/test_draft_kings_odds_client.py:74 | the mocked `startDate` splits into `2024-10-20` and `18:00:00.000Z` |
| Client.SampleGameTime | draft_kings_client/tests/test_draft_kings_odds_client.py:99 | `18:00:00.000Z` gives the game time `18:00:00` |
| Client.DetailDocRecorded | draft_kings_client/tests/test_draft_kings_odds_client.py:72-85 | a detail document of the mocked shape, with one 'T' in its start date, yields the record of its leaf values |
| Client.SampleDetailRecorded | draft_kings_client/tests/test_draft_kings_odds_client.py:93-106 | with `line` supplied, the mocked detail yields exactly the record the test expects |
| Client.SampleDetailAbortsAsWritten | draft_kings_client/client.py:101-104 | as written, the mocked detail raises TypeError at the constructor call |
| Client.SampleHarvest | draft_kings_client/tests/test_draft_kings_odds_client.py:67-112 | with the mocked fetches and any `line` value, the corrected harvest fetches both ids and returns two records in id order, each tagged with that `line` and stamped at its own clock reading |
| Client.SampleHarvestAsWritten | draft_kings_client/tests/test_draft_kings_odds_client.py:67-112 | as written, the same harvest fetches only the first id and fails with TypeError, so the test's expectations cannot hold |

## Left out

- HTTP transport: the session, URLs, query strings, timeouts, `raise_for_status` and JSON decoding. A fetch is an input, and `None` stands for a caught `RequestException`.
- Header acquisition inside a harvest. `_get_headers` runs inside the two fetch helpers, so its requests and sleeps fold into the fetch inputs. `Authenticator.Headers` models that read on its own.
- Logging. It has no effect on results.
- `time.sleep`. It is recorded as a list of durations.
- `datetime.now`. It is a clock input. Years are limited to 1000-9999, the four-digit range `%Y` produces for every year in use.
- File I/O in `_write_to_file`: opening, truncation, the UTF-8 BOM, CSV quoting and line endings, and the `IOError` handler. The model gives the header and the cell values of each row.
- JSON floats. Numbers are integers, and the client never computes with them.
- The trivial accessors `auth_endpoint` and `authenticator`, and the client's constructor. `OddsModel`'s per-column accessors are modelled by `OddsModel.Column`.
- `main.py`. It is an entry point outside the harvester.
- `Client.Process`: the `line` argument is supplied by the caller. The code as written passes no value for it (see Findings), and nothing in the code says which value is intended.

## Findings

| source | as written | input that shows it | evidently intended | confidence | as-written member | corrected member |
|---|---|---|---|---|---|---|
| draft_kings_client/client.py:101-104 | `OddsModel(...)` is called with eleven positional arguments. `OddsModel.__init__` (models/odds_model.py:2) requires twelve, the last being `line`. Every document that passes the guard and all field reads raises TypeError, which escapes `get_football_markets`. | the detail document the test suite mocks (tests/test_draft_kings_odds_client.py:72-85), fetched for ids `12345` and `67890` | each well-formed document yields a record tagged with a `line` value, and the harvest returns both records | high; not executed | Client.ProcessAsWritten, Client.SampleHarvestAsWritten | Client.Process, Client.SampleHarvest |

=== FILE: authenticator.dfy ===
/**
 * Anonymous token acquisition and the memoised token and header properties
 * of `Authenticator`. The network is an oracle: the outcome of the k-th
 * request of one acquisition is `net(k)`. Sleeping is recorded as the list
 * of durations slept, in seconds.
 */
module Authenticator {
  import opened Wrappers

  /** Outcome of one request to the token endpoint. */
  datatype Attempt =
    | Raised                            // Timeout, RequestException or any other exception
    | Resp(status: int, text: string)   // an HTTP response

  /** The endpoint's behaviour: the outcome of the k-th request of one acquisition. */
  type Network = nat -> Attempt

  /** Number of requests one acquisition makes at most. */
  const Retries: nat := 3

  /** Sleep before the second request; it doubles after every sleep. */
  const InitialDelay: nat := 2

  // ---------------------------------------------------------------------
  // Token extraction: re.search(r'"token":"(.*?)"', text).group(1)
  // ---------------------------------------------------------------------

  /** The literal the pattern starts with. */
  const TokenPrefix: string := "\"token\":\""

  /** No quote and no newline in `s[i..j]`: the lazy `.*?` can span it. */
  predicate Spannable(s: string, i: nat, j: nat)
    requires i <= j <= |s|
  {
    forall k :: i <= k < j ==> s[k] != '"' && s[k] != '\n'
  }

  /**
   * The pattern matches at position `p` with group `t`: the prefix literal
   * starts at `p`, then `t` (no quote, no newline), then a quote.
   */
  predicate MatchesAt(s: string, p: nat, t: string) {
    var i := p + |TokenPrefix|;
    && i + |t| < |s|
    && s[p..i] == TokenPrefix
    && s[i..i + |t|] == t
    && Spannable(s, i, i + |t|)
    && s[i + |t|] == '"'
  }

  /** Index of the quote closing a lazy group that starts at `i`, if the group can close. */
  function ClosingQuote(s: string, i: nat): (j: Option<nat>)
    requires i <= |s|
    ensures j.Some? ==> i <= j.value < |s| && s[j.value] == '"' && Spannable(s, i, j.value)
    ensures j.None? ==> forall k :: i <= k < |s| && Spannable(s, i, k) ==> s[k] != '"'
    decreases |s| - i
  {
    if i == |s| then None
    else if s[i] == '"' then Some(i)
    else if s[i] == '\n' then None
    else
      var r := ClosingQuote(s, i + 1);
      assert forall k :: i + 1 <= k < |s| && Spannable(s, i, k) ==> Spannable(s, i + 1, k);
      r
  }

  /** A quote reached without crossing a quote or newline is the one that closes the group. */
  lemma {:induction false} ClosingQuoteAt(s: string, i: nat, j: nat)
    requires i <= j < |s| && s[j] == '"' && Spannable(s, i, j)
    ensures ClosingQuote(s, i) == Some(j)
    decreases j - i
  {
    if i < j {
      ClosingQuoteAt(s, i + 1, j);
    }
  }

  /** The leftmost match at or after `p`, with its position. */
  function FindFrom(s: string, p: nat): (r: Option<(nat, string)>)
    ensures r.Some? ==> p <= r.value.0 && MatchesAt(s, r.value.0, r.value.1)
    ensures r.Some? ==> forall q, u :: p <= q < r.value.0 ==> !MatchesAt(s, q, u)
    ensures r.None? ==> forall q, u :: p <= q ==> !MatchesAt(s, q, u)
    decreases |s| - p
  {
    var i := p + |TokenPrefix|;
    if i > |s| then None
    else
      var close := ClosingQuote(s, i);
      if s[p..i] == TokenPrefix && close.Some? then
        var t := s[i..close.value];
        assert MatchesAt(s, p, t);
        Some((p, t))
      else
        assert forall u :: !MatchesAt(s, p, u);
        FindFrom(s, p + 1)
  }

  /** `re.search(r'"token":"(.*?)"', text)`, reduced to its group 1. */
  function ExtractToken(text: string): Option<string> {
    match FindFrom(text, 0)
    case None => None
    case Some((_, t)) => Some(t)
  }

  /**
   * The extracted token is the group of the leftmost match: the text between
   * the first `"token":"` that is closed by a quote on the same line and
   * that quote; it holds no quote and no newline. There is no token exactly
   * when the pattern matches nowhere.
   */
  lemma ExtractTokenIsLeftmostMatch(text: string)
    ensures ExtractToken(text).Some? ==>
              exists p :: MatchesAt(text, p, ExtractToken(text).value)
                          && forall q, u :: q < p ==> !MatchesAt(text, q, u)
    ensures ExtractToken(text).Some? ==>
              '"' !in ExtractToken(text).value && '\n' !in ExtractToken(text).value
    ensures ExtractToken(text).None? <==> forall p, u :: !MatchesAt(text, p, u)
  {
    match FindFrom(text, 0)
    case None =>
    case Some((p, t)) =>
      var i := p + |TokenPrefix|;
      assert text[i..i + |t|] == t;
      assert forall k :: 0 <= k < |t| ==> t[k] == text[i + k];
  }

  /** The token one attempt yields: only a 200 response whose body matches counts. */
  function TokenOf(a: Attempt): Option<string> {
    match a
    case Raised => None
    case Resp(status, text) => if status == 200 then ExtractToken(text) else None
  }

  /** The k-th attempt of an acquisition yields no token. */
  predicate Fails(net: Network, k: nat) {
    TokenOf(net(k)).None?
  }

  // ---------------------------------------------------------------------
  // Retry loop: _generate_jwt_token
  // ---------------------------------------------------------------------

  /** Result of one acquisition: the token, how many requests were made, the sleeps in order. */
  datatype TokenRun = TokenRun(token: Option<string>, requests: nat, sleeps: seq<nat>)

  /** `n` sleeps starting at `delay`, each twice the one before. */
  function Backoff(delay: nat, n: nat): (ds: seq<nat>)
    ensures |ds| == n
    decreases n
  {
    if n == 0 then [] else [delay] + Backoff(2 * delay, n - 1)
  }

  /** The token each attempt of an acquisition yields, by attempt index. */
  function Yields(net: Network): nat -> Option<string> {
    (k: nat) => TokenOf(net(k))
  }

  /**
   * Iterations `attempt`, `attempt + 1`, ... of the retry loop, where attempt
   * k yields `tokens(k)` and `delay` is the current retry delay. It stops at
   * the first attempt that yields a token; it sleeps after every failed
   * attempt but the last, doubling the delay each time.
   */
  function RetryLoop(tokens: nat -> Option<string>, attempt: nat, delay: nat): (r: TokenRun)
    requires attempt < Retries
    ensures attempt < r.requests <= Retries
    ensures r.sleeps == Backoff(delay, r.requests - 1 - attempt)
    ensures forall k :: attempt <= k < r.requests - 1 ==> tokens(k).None?
    ensures r.token == tokens(r.requests - 1)
    ensures r.token.None? ==> r.requests == Retries
    decreases Retries - attempt
  {
    var token := tokens(attempt);
    if token.Some? then
      TokenRun(token, attempt + 1, [])
    else if attempt < Retries - 1 then
      var rest := RetryLoop(tokens, attempt + 1, 2 * delay);
      assert Backoff(delay, rest.requests - 1 - attempt) == [delay] + rest.sleeps;
      TokenRun(rest.token, rest.requests, [delay] + rest.sleeps)
    else
      TokenRun(None, Retries, [])
  }

  /**
   * `_generate_jwt_token`: at most three requests; the token of the first
   * successful attempt and no request after it; sleeps of 2 then 4 seconds
   * between attempts and never after the last; no token, and no exception,
   * when all three attempts fail.
   */
  function GenerateJwtToken(net: Network): (r: TokenRun)
    ensures 1 <= r.requests <= Retries
    ensures r.sleeps == [2, 4][..r.requests - 1]
    ensures forall k :: 0 <= k < r.requests - 1 ==> Fails(net, k)
    ensures r.token == TokenOf(net(r.requests - 1))
    ensures r.token.None? <==> forall k :: 0 <= k < Retries ==> Fails(net, k)
    ensures r.token.None? ==> r.requests == Retries && r.sleeps == [2, 4]
  {
    var r := RetryLoop(Yields(net), 0, InitialDelay);
    RetrySleeps(Yields(net));
    RetryAttempts(net);
    r
  }

  /** Starting from the initial delay, the loop sleeps 2 and then 4 seconds. */
  lemma RetrySleeps(tokens: nat -> Option<string>)
    ensures var r := RetryLoop(tokens, 0, InitialDelay);
            r.sleeps == [2, 4][..r.requests - 1]
  {
    assert Backoff(2, 1) == [2] && Backoff(2, 2) == [2, 4];
  }

  /** The loop's attempts, read back as the network's outcomes. */
  lemma RetryAttempts(net: Network)
    ensures var r := RetryLoop(Yields(net), 0, InitialDelay);
            && (forall k :: 0 <= k < r.requests - 1 ==> Fails(net, k))
            && r.token == TokenOf(net(r.requests - 1))
            && (r.token.None? <==> forall k :: 0 <= k < Retries ==> Fails(net, k))
  {
    var r := RetryLoop(Yields(net), 0, InitialDelay);
    assert forall k: nat :: Yields(net)(k) == TokenOf(net(k));
    assert r.token.None? <==> Fails(net, r.requests - 1);
  }

  /** Sum of a list of sleep durations. */
  function Total(xs: seq<nat>): nat {
    if |xs| == 0 then 0 else xs[0] + Total(xs[1..])
  }

  /** Total sleep is at most 6 seconds, and exactly 6 when a third request is made. */
  lemma TotalSleep(net: Network)
    ensures Total(GenerateJwtToken(net).sleeps) <= 6
    ensures Total(GenerateJwtToken(net).sleeps) == 6 <==> GenerateJwtToken(net).requests == 3
  {
    var r := GenerateJwtToken(net);
    assert r.requests == 1 || r.requests == 2 || r.requests == 3;
    if r.requests == 2 {
      assert r.sleeps == [2];
    } else if r.requests == 3 {
      assert r.sleeps == [2, 4];
      assert r.sleeps[1..] == [4];
    }
  }

  // ---------------------------------------------------------------------
  // Memoised properties: jwt_token, headers, _generate_headers
  // ---------------------------------------------------------------------

  /** The two caches of an `Authenticator`; `None` is Python's `None`. */
  datatype Auth = Auth(token: Option<string>, headers: Option<map<string, string>>)

  /** A token cache is usable when it holds a non-empty string (Python truthiness). */
  predicate Usable(t: Option<string>) {
    t.Some? && |t.value| > 0
  }

  /** A header cache is usable when it holds a non-empty dict (Python truthiness). */
  predicate Present(h: Option<map<string, string>>) {
    h.Some? && |h.value| > 0
  }

  /** `Authenticator(headers=...)`: no token yet, the given headers (if any) cached. */
  function NewAuth(headers: Option<map<string, string>>): (a: Auth)
    ensures a.token.None? && a.headers == headers
  {
    Auth(None, headers)
  }

  /** One property read: the state after it, the value read, requests made, sleeps taken. */
  datatype Read<T> = Read(auth: Auth, value: T, requests: nat, sleeps: seq<nat>)

  /**
   * `jwt_token`: a usable cached token is returned with no request; otherwise
   * one acquisition runs, and only a token it obtains replaces the cache. The
   * value read is whatever the cache then holds.
   */
  function JwtToken(a: Auth, net: Network): (r: Read<Option<string>>)
    ensures Usable(a.token) ==> r == Read(a, a.token, 0, [])
    ensures !Usable(a.token) ==> 1 <= r.requests <= Retries
    ensures !Usable(a.token) ==>
              r.requests == GenerateJwtToken(net).requests && r.sleeps == GenerateJwtToken(net).sleeps
    ensures r.value == r.auth.token && r.auth.headers == a.headers
    ensures GenerateJwtToken(net).token.None? ==> r.auth == a
    ensures !Usable(a.token) && GenerateJwtToken(net).token.Some? ==>
              r.value == GenerateJwtToken(net).token
  {
    if Usable(a.token) then Read(a, a.token, 0, [])
    else
      var run := GenerateJwtToken(net);
      var a' := if run.token.Some? then a.(token := run.token) else a;
      Read(a', a'.token, run.requests, run.sleeps)
  }

  /** The header names `_generate_headers` sets, in order. */
  function HeaderNames(): (names: seq<string>)
    ensures |names| == 8 && names[0] == "Authorization"
    ensures forall i, j :: 0 <= i < j < |names| ==> names[i] != names[j]
  {
    ["Authorization", "Accept", "Accept-Encoding", "Accept-Language",
     "Cache-Control", "Origin", "Pragma", "User-Agent"]
  }

  /** The value of the i-th header for `token` (the last one for every i from 7 on). */
  function HeaderValue(token: string, i: nat): string {
    match i
    case 0 => "Bearer " + token
    case 1 => "*/*"
    case 2 => "gzip, deflate, br, zstd"
    case 3 => "en-GB,en-US;q=0.9,en;q=0.8"
    case 4 => "no-cache"
    case 5 => "https://sportsbook.draftkings.com"
    case 6 => "no-cache"
    case _ => "Mozilla/5.0 (Windows NT 10.0; Win64; x64) AppleWebKit/537.36 (KHTML, like Gecko) Chrome/129.0.0.0 Safari/537.36"
  }

  /** The dict whose i-th key is `names[i]` with value `value(i)`. */
  function Tabulate(names: seq<string>, value: nat -> string): (h: map<string, string>)
    requires forall i, j :: 0 <= i < j < |names| ==> names[i] != names[j]
    ensures |h| == |names|
    ensures forall i :: 0 <= i < |names| ==> names[i] in h && h[names[i]] == value(i)
  {
    var h := map i | 0 <= i < |names| :: names[i] := value(i);
    assert h.Keys == set i | 0 <= i < |names| :: names[i];
    MapCardinality(names, h);
    h
  }

  /** The header dict built from a token: eight entries, bearer authorization first. */
  function BuildHeaders(token: string): (h: map<string, string>)
    ensures |h| == 8
    ensures "Authorization" in h && h["Authorization"] == "Bearer " + token
    ensures forall i :: 0 <= i < 8 ==> HeaderNames()[i] in h && h[HeaderNames()[i]] == HeaderValue(token, i)
  {
    Tabulate(HeaderNames(), (i: nat) => HeaderValue(token, i))
  }

  /** A map keyed by the distinct elements of a sequence has as many entries as the sequence. */
  lemma {:induction false} MapCardinality(names: seq<string>, h: map<string, string>)
    requires forall i, j :: 0 <= i < j < |names| ==> names[i] != names[j]
    requires h.Keys == set i | 0 <= i < |names| :: names[i]
    ensures |h| == |names|
  {
    DistinctSetSize(names);
  }

  lemma {:induction false} DistinctSetSize(names: seq<string>)
    requires forall i, j :: 0 <= i < j < |names| ==> names[i] != names[j]
    ensures |set i | 0 <= i < |names| :: names[i]| == |names|
  {
    if |names| > 0 {
      var last := names[|names| - 1];
      var init := names[..|names| - 1];
      DistinctSetSize(init);
      var all := set i | 0 <= i < |names| :: names[i];
      var front := set i | 0 <= i < |init| :: init[i];
      assert all == front + {last} by {
        forall x | x in all ensures x in front + {last} {
          var i :| 0 <= i < |names| && names[i] == x;
          if i < |init| { assert init[i] == x; }
        }
        forall x | x in front ensures x in all {
          var i :| 0 <= i < |init| && init[i] == x;
          assert names[i] == x;
        }
      }
      forall i | 0 <= i < |init| ensures init[i] != last {
        assert init[i] == names[i];
      }
      assert last !in front;
    }
  }

  /**
   * `headers`: a usable cached header dict is returned with no request.
   * Otherwise `_generate_headers` reads `jwt_token`; without a usable token
   * nothing is cached and the old header value is returned; with one, the
   * token is read a second time (from the cache) and the eight headers built
   * from it are cached and returned.
   */
  function Headers(a: Auth, net: Network): (r: Read<Option<map<string, string>>>)
    ensures Present(a.headers) ==> r == Read(a, a.headers, 0, [])
    ensures r.requests <= Retries
    ensures !Present(a.headers) && !Usable(a.token) ==> r.requests >= 1
    ensures !Present(a.headers) && Present(r.value) ==>
              && Usable(r.auth.token)
              && r.value == r.auth.headers
              && r.value == Some(BuildHeaders(r.auth.token.value))
    ensures !Present(a.headers) && !Present(r.value) ==>
              r.value == a.headers && r.auth.headers == a.headers && !Usable(r.auth.token)
    ensures !Present(a.headers) ==>
              var t := JwtToken(a, net);
              && r.auth.token == t.auth.token
              && r.requests == t.requests && r.sleeps == t.sleeps
              && (Present(r.value) <==> Usable(t.value))
    ensures !Present(a.headers) && Usable(JwtToken(a, net).value) ==>
              r.value == Some(BuildHeaders(JwtToken(a, net).value.value))
  {
    if Present(a.headers) then Read(a, a.headers, 0, [])
    else
      var first := JwtToken(a, net);
      if !Usable(first.value) then
        Read(first.auth, first.auth.headers, first.requests, first.sleeps)
      else
        var second := JwtToken(first.auth, net);
        var h := BuildHeaders(second.value.value);
        Read(second.auth.(headers := Some(h)), Some(h),
             first.requests + second.requests, first.sleeps + second.sleeps)
  }

  // ---------------------------------------------------------------------
  // Properties of repeated reads
  // ---------------------------------------------------------------------

  /** Successive `jwt_token` reads, the i-th one facing network `nets[i]`. */
  function TokenReads(a: Auth, nets: seq<Network>): (rs: seq<Read<Option<string>>>)
    ensures |rs| == |nets|
    decreases |nets|
  {
    if |nets| == 0 then []
    else
      var r := JwtToken(a, nets[0]);
      [r] + TokenReads(r.auth, nets[1..])
  }

  /** With a usable token cached, every later read returns it and touches nothing. */
  lemma {:induction false} CachedTokenIsStable(a: Auth, nets: seq<Network>)
    requires Usable(a.token)
    decreases |nets|
    ensures forall i :: 0 <= i < |nets| ==> TokenReads(a, nets)[i] == Read(a, a.token, 0, [])
  {
    if |nets| > 0 {
      CachedTokenIsStable(a, nets[1..]);
    }
  }

  /**
   * Once a read yields a non-empty token, every later read returns that same
   * token without a request; an empty token does not stick (see `JwtToken`).
   */
  lemma {:induction false} TokenMemoised(a: Auth, nets: seq<Network>, i: nat)
    requires i < |nets| && Usable(TokenReads(a, nets)[i].value)
    decreases i
    ensures forall j :: i < j < |nets| ==>
              TokenReads(a, nets)[j].value == TokenReads(a, nets)[i].value
              && TokenReads(a, nets)[j].requests == 0
  {
    var seen := TokenReads(a, nets);
    var r := JwtToken(a, nets[0]);
    var rest := TokenReads(r.auth, nets[1..]);
    assert seen == [r] + rest;
    if i == 0 {
      CachedTokenIsStable(r.auth, nets[1..]);
      forall j | 0 < j < |nets| ensures seen[j].value == r.value && seen[j].requests == 0 {
        assert seen[j] == rest[j - 1];
      }
    } else {
      TokenMemoised(r.auth, nets[1..], i - 1);
      forall j | i < j < |nets| ensures seen[j].value == seen[i].value && seen[j].requests == 0 {
        assert seen[j] == rest[j - 1] && seen[i] == rest[i - 1];
      }
    }
  }

  /** A token acquisition that yields an empty token leaves a cache that the next read refills. */
  lemma EmptyTokenIsReacquired(a: Auth, net1: Network, net2: Network)
    requires !Usable(a.token) && GenerateJwtToken(net1).token == Some("")
    ensures JwtToken(a, net1).value == Some("")
    ensures JwtToken(JwtToken(a, net1).auth, net2).requests >= 1
  {
  }

  /** Headers that were read successfully are cached: the next read returns them with no request. */
  lemma HeadersMemoised(a: Auth, net1: Network, net2: Network)
    requires Present(Headers(a, net1).value)
    ensures Headers(Headers(a, net1).auth, net2)
            == Read(Headers(a, net1).auth, Headers(a, net1).value, 0, [])
  {
  }

  /** A failed header read caches nothing, so the next read tries to acquire a token again. */
  lemma HeadersRetriedAfterFailure(a: Auth, net1: Network, net2: Network)
    requires !Present(Headers(a, net1).value)
    ensures Headers(a, net1).auth.headers == a.headers
    ensures Headers(Headers(a, net1).auth, net2).requests >= 1
  {
  }

  /** A body `{"token":"<t>"}` yields `t` when `t` holds no quote and no newline. */
  lemma {:induction false} TokenBodyExtracted(token: string)
    requires '"' !in token && '\n' !in token
    ensures ExtractToken("{" + TokenPrefix + token + "\"}") == Some(token)
  {
    var s := "{" + TokenPrefix + token + "\"}";
    var i := 1 + |TokenPrefix|;
    var j := i + |token|;
    assert s[1..i] == TokenPrefix;
    assert s[i..j] == token;
    assert s[j] == '"';
    assert Spannable(s, i, j) by {
      forall k | i <= k < j ensures s[k] != '"' && s[k] != '\n' {
        assert s[k] == token[k - i];
      }
    }
    ClosingQuoteAt(s, i, j);
    assert MatchesAt(s, 1, token);
    assert !MatchesAt(s, 0, token) by {
      assert s[0..i - 1] != TokenPrefix by {
        assert s[0] == '{' && TokenPrefix[0] == '"';
      }
    }
    assert FindFrom(s, 1) == Some((1, token));
  }

  /** The body of the mocked success response yields `mocked_token`. */
  lemma MockedTokenExtracted()
    ensures ExtractToken("{\"token\":\"mocked_token\"}") == Some("mocked_token")
  {
    var token := "mocked_token";
    assert '"' !in token && '\n' !in token;
    assert "{" + TokenPrefix == "{\"token\":\"";
    assert "{" + TokenPrefix + token == "{\"token\":\"mocked_token";
    assert "{" + TokenPrefix + token + "\"}" == "{\"token\":\"mocked_token\"}";
    TokenBodyExtracted(token);
  }

  /**
   * An endpoint answering 200 with the mocked body: the acquisition makes one
   * request, sleeps not at all and returns the token, and a fresh
   * authenticator's `jwt_token` then holds it.
   */
  lemma MockedTokenRun(net: Network)
    requires forall k :: net(k) == Resp(200, "{\"token\":\"mocked_token\"}")
    ensures GenerateJwtToken(net) == TokenRun(Some("mocked_token"), 1, [])
    ensures JwtToken(NewAuth(None), net).value == Some("mocked_token")
  {
    MockedTokenExtracted();
    assert TokenOf(net(0)) == Some("mocked_token");
  }

  /** An endpoint that always answers 500 yields no token after three requests. */
  lemma AlwaysFailingEndpoint(net: Network)
    requires forall k :: net(k).Resp? && net(k).status != 200
    ensures GenerateJwtToken(net).token.None?
    ensures GenerateJwtToken(net).requests == Retries
    ensures GenerateJwtToken(net).sleeps == [2, 4]
  {
    assert Fails(net, 0) && Fails(net, 1) && Fails(net, 2);
  }
}

=== FILE: client.dfy ===
/**
 * `DraftKingsOddsClient`: selection-id extraction, per-selection
 * normalisation into an odds record (record, skip or abort), the harvest
 * loop over all selection ids, and the rows the CSV writer emits.
 *
 * HTTP is an oracle: the enumeration response and the per-id detail fetch
 * are inputs, `None` standing for a request that raised `RequestException`
 * (which the client catches and turns into `[]` or `None`). The wall clock
 * is an input too: `clock(i)` is the instant read while normalising the
 * i-th selection.
 */
module Client {
  import opened Wrappers
  import opened PyJson
  import PyStr
  import opened OddsModel

  // ---------------------------------------------------------------------
  // _fetch_selection_ids
  // ---------------------------------------------------------------------

  /** `[selection['id'] for selection in items]`, raising at the first element without an id. */
  function IdsOf(items: seq<Json>): (r: Result<seq<Json>, Exc>)
    ensures r.Ok? <==> forall i :: 0 <= i < |items| ==> Subscript(items[i], "id").Ok?
    ensures r.Ok? ==> |r.value| == |items|
                      && forall i :: 0 <= i < |items| ==> r.value[i] == items[i].fields["id"]
    ensures r.Err? ==> exists i :: 0 <= i < |items| && Subscript(items[i], "id") == Err(r.error)
                                   && forall j :: 0 <= j < i ==> Subscript(items[j], "id").Ok?
  {
    if |items| == 0 then Ok([])
    else
      var id :- Subscript(items[0], "id");
      var rest := IdsOf(items[1..]);
      if rest.Err? then
        assert forall j :: 1 <= j < |items| ==> items[j] == items[1..][j - 1];
        Err(rest.error)
      else
        Ok([id] + rest.value)
  }

  /**
   * `_fetch_selection_ids` given the enumeration response (`None` when the
   * request failed). Iterating a non-list `selections` value raises
   * TypeError unless it is an empty dict or empty string; a body that is not
   * a JSON object has no `get` and raises AttributeError. These exceptions
   * are not `RequestException`s, so they escape.
   */
  function FetchSelectionIds(response: Option<Json>): (r: Result<seq<Json>, Exc>)
    ensures response.None? ==> r == Ok([])
    ensures response.Some? && !response.value.JObj? ==> r == Err(AttributeError)
    ensures response.Some? && response.value.JObj? && "selections" !in response.value.fields ==> r == Ok([])
    ensures response.Some? && response.value.JObj? && "selections" in response.value.fields
            && response.value.fields["selections"].JArr? ==>
              var items := response.value.fields["selections"].items;
              && (r.Ok? <==> forall i :: 0 <= i < |items| ==> items[i].JObj? && "id" in items[i].fields)
              && (r.Ok? ==> |r.value| == |items|
                            && forall i :: 0 <= i < |items| ==> r.value[i] == items[i].fields["id"])
    ensures response.Some? && response.value.JObj? && "selections" in response.value.fields
            && !response.value.fields["selections"].JArr? ==>
              r == (if response.value.fields["selections"] in {JObj(map[]), JStr("")} then Ok([]) else Err(TypeError))
  {
    match response
    case None => Ok([])
    case Some(body) =>
      var selections :- Get(body, "selections", JArr([]));
      match selections
      case JArr(items) => IdsOf(items)
      case JObj(m) => if |m| == 0 then Ok([]) else Err(TypeError)
      case JStr(s) => if |s| == 0 then Ok([]) else Err(TypeError)
      case _ => Err(TypeError)
  }

  // ---------------------------------------------------------------------
  // get_football_markets: per-selection normalisation
  // ---------------------------------------------------------------------

  /** What happens to one selection: a record, a skip with the loop going on, or an escaping exception. */
  datatype Outcome =
    | Recorded(record: OddsRecord)
    | Skipped(reason: SkipReason)
    | Aborted(exc: Exc)

  datatype SkipReason =
    | IncompleteData   // the guard: no document, an empty one, or a top-level key missing
    | MissingData      // a KeyError caught by the per-selection handler

  /**
   * The guard `not doc or 'events' not in doc or 'markets' not in doc or
   * 'selections' not in doc` (true means skip). It tests key presence only.
   * It runs outside the try block, so a truthy number or boolean document,
   * which supports no `in`, raises TypeError out of the harvest.
   */
  function Incomplete(doc: Option<Json>): (r: Result<bool, Exc>)
    ensures doc.None? ==> r == Ok(true)
    ensures doc.Some? && !Truthy(doc.value) ==> r == Ok(true)
    ensures doc.Some? && doc.value.JObj? ==>
              r == Ok(!Truthy(doc.value) || !({"events", "markets", "selections"} <= doc.value.fields.Keys))
    ensures r.Err? <==> doc.Some? && Truthy(doc.value) && !(doc.value.JObj? || doc.value.JArr? || doc.value.JStr?)
    ensures r.Err? ==> r.error == TypeError
  {
    match doc
    case None => Ok(true)
    case Some(v) =>
      if !Truthy(v) then Ok(true)
      else if !(v.JObj? || v.JArr? || v.JStr?) then Err(TypeError)  // from `'events' in v`
      else Ok(!(Has(v, "events") && Has(v, "markets") && Has(v, "selections")))
  }

  /** `key in v` for a value that supports `in`. */
  function Has(v: Json, key: string): bool
    requires v.JObj? || v.JArr? || v.JStr?
  {
    Contains(v, key).value
  }

  /** `doc[key][0]`. */
  function FirstOf(doc: Json, key: string): Result<Json, Exc> {
    var list :- Subscript(doc, key);
    First(list)
  }

  /**
   * `game_date, game_time_with_zone = start.split('T')`: a string with
   * exactly one 'T' splits into the text before and after it; any other
   * count of 'T' fails to unpack into two names (ValueError); a non-string
   * has no `split` (AttributeError).
   */
  function SplitStartDate(start: Json): (r: Result<(string, string), Exc>)
    ensures r.Ok? <==> start.JStr? && PyStr.Count(start.s, 'T') == 1
    ensures r.Ok? ==> r.value.0 + "T" + r.value.1 == start.s
    ensures r.Ok? ==> 'T' !in r.value.0 && 'T' !in r.value.1
    ensures r.Err? ==> r.error == (if start.JStr? then ValueError else AttributeError)
  {
    match start
    case JStr(s) =>
      var parts := PyStr.Split(s, 'T');
      if |parts| == 2 then
        assert PyStr.Join(parts, 'T') == parts[0] + "T" + parts[1];
        Ok((parts[0], parts[1]))
      else Err(ValueError)
    case _ => Err(AttributeError)
  }

  /**
   * `game_time_with_zone.split('.')[0]`: the longest '.'-free prefix, so all
   * of the text when it holds no '.', and otherwise the text before the
   * first '.'; fractional seconds and zone suffix after that '.' are dropped.
   */
  function GameTime(timeWithZone: string): (r: string)
    ensures '.' !in r
    ensures r <= timeWithZone
    ensures '.' !in timeWithZone ==> r == timeWithZone
    ensures '.' in timeWithZone ==> |r| < |timeWithZone| && timeWithZone[|r|] == '.'
  {
    PyStr.SplitFirstPiece(timeWithZone, '.');
    PyStr.Split(timeWithZone, '.')[0]
  }

  // ---------------------------------------------------------------------
  // time_retrieved
  // ---------------------------------------------------------------------

  /** A UTC clock reading, with the ranges `datetime` guarantees (and a four-digit year). */
  datatype Instant = Instant(year: int, month: int, day: int, hour: int, minute: int,
                             second: int, microsecond: int)

  type ClockReading = t: Instant |
      && 1000 <= t.year <= 9999 && 1 <= t.month <= 12 && 1 <= t.day <= 31
      && 0 <= t.hour < 24 && 0 <= t.minute < 60 && 0 <= t.second < 60
      && 0 <= t.microsecond < 1000000
    witness Instant(2024, 10, 20, 18, 0, 0, 0)

  /** `t.strftime('%Y-%m-%dT%H:%M:%S.%f')`. */
  function Strftime(t: ClockReading): string {
    PyStr.Pad(t.year, 4) + "-" + PyStr.Pad(t.month, 2) + "-" + PyStr.Pad(t.day, 2)
    + "T" + PyStr.Pad(t.hour, 2) + ":" + PyStr.Pad(t.minute, 2) + ":" + PyStr.Pad(t.second, 2)
    + "." + PyStr.Pad(t.microsecond, 6)
  }

  /** `t.strftime('%Y-%m-%dT%H:%M:%S.%f')[:-1] + 'Z'`. */
  function TimeRetrieved(t: ClockReading): string {
    var f := Strftime(t);
    f[..|f| - 1] + "Z"
  }

  /** `x`, then the separator, then `y`, viewed through slices. */
  lemma Joined(x: string, sep: char, y: string)
    ensures var z := x + [sep] + y;
            |z| == |x| + 1 + |y| && z[..|x|] == x && z[|x|] == sep && z[|x| + 1..] == y
  {
  }

  /**
   * `time_retrieved` is 26 characters: the date and time fields at fixed
   * offsets, 'T' at index 10, '.' at 19, 'Z' last, and in between the first
   * five of the six microsecond digits, which is the microsecond count
   * divided by ten, zero-padded to five digits.
   */
  lemma TimeRetrievedLayout(t: ClockReading)
    ensures var r := TimeRetrieved(t);
            && |r| == 26
            && r[4] == '-' && r[7] == '-' && r[10] == 'T' && r[13] == ':' && r[16] == ':'
            && r[19] == '.' && r[25] == 'Z'
            && r[..4] == PyStr.Pad(t.year, 4) && r[5..7] == PyStr.Pad(t.month, 2)
            && r[8..10] == PyStr.Pad(t.day, 2) && r[11..13] == PyStr.Pad(t.hour, 2)
            && r[14..16] == PyStr.Pad(t.minute, 2) && r[17..19] == PyStr.Pad(t.second, 2)
            && r[20..25] == PyStr.Pad(t.microsecond / 10, 5)
  {
    var s1 := PyStr.Pad(t.year, 4);
    var s2 := s1 + ['-'] + PyStr.Pad(t.month, 2);
    var s3 := s2 + ['-'] + PyStr.Pad(t.day, 2);
    var s4 := s3 + ['T'] + PyStr.Pad(t.hour, 2);
    var s5 := s4 + [':'] + PyStr.Pad(t.minute, 2);
    var s6 := s5 + [':'] + PyStr.Pad(t.second, 2);
    var s7 := s6 + ['.'] + PyStr.Pad(t.microsecond / 10, 5);
    var r := s7 + ['Z'];
    assert PyStr.Pad(t.microsecond, 6) == PyStr.Pad(t.microsecond / 10, 5) + [PyStr.DigitChar(t.microsecond % 10)];
    assert Strftime(t) == s7 + [PyStr.DigitChar(t.microsecond % 10)];
    assert TimeRetrieved(t) == r;
    Joined(s1, '-', PyStr.Pad(t.month, 2));
    Joined(s2, '-', PyStr.Pad(t.day, 2));
    Joined(s3, 'T', PyStr.Pad(t.hour, 2));
    Joined(s4, ':', PyStr.Pad(t.minute, 2));
    Joined(s5, ':', PyStr.Pad(t.second, 2));
    Joined(s6, '.', PyStr.Pad(t.microsecond / 10, 5));
    assert r[..25] == s7;
    assert r[..19] == s6 by { assert r[..19] == s7[..19]; }
    assert r[..16] == s5 by { assert r[..16] == s6[..16]; }
    assert r[..13] == s4 by { assert r[..13] == s5[..13]; }
    assert r[..10] == s3 by { assert r[..10] == s4[..10]; }
    assert r[..7] == s2 by { assert r[..7] == s3[..7]; }
    assert r[..4] == s1 by { assert r[..4] == s2[..4]; }
    assert r[5..7] == s2[5..7];
    assert r[8..10] == s3[8..10];
    assert r[11..13] == s4[11..13];
    assert r[14..16] == s5[14..16];
    assert r[17..19] == s6[17..19];
    assert r[20..25] == s7[20..25];
  }

  /** Reading the digits of `time_retrieved` back gives the clock components, microseconds truncated to tens. */
  lemma TimeRetrievedDecodes(t: ClockReading)
    ensures var r := TimeRetrieved(t);
            && PyStr.AllDigits(r[..4]) && PyStr.DecimalValue(r[..4]) == t.year
            && PyStr.AllDigits(r[5..7]) && PyStr.DecimalValue(r[5..7]) == t.month
            && PyStr.AllDigits(r[8..10]) && PyStr.DecimalValue(r[8..10]) == t.day
            && PyStr.AllDigits(r[11..13]) && PyStr.DecimalValue(r[11..13]) == t.hour
            && PyStr.AllDigits(r[14..16]) && PyStr.DecimalValue(r[14..16]) == t.minute
            && PyStr.AllDigits(r[17..19]) && PyStr.DecimalValue(r[17..19]) == t.second
            && PyStr.AllDigits(r[20..25]) && PyStr.DecimalValue(r[20..25]) == t.microsecond / 10
  {
    TimeRetrievedLayout(t);
    assert PyStr.Pow10(2) == 100 && PyStr.Pow10(4) == 10000 && PyStr.Pow10(5) == 100000;
    PyStr.PadDecimalValue(t.year, 4);
    PyStr.PadDecimalValue(t.month, 2);
    PyStr.PadDecimalValue(t.day, 2);
    PyStr.PadDecimalValue(t.hour, 2);
    PyStr.PadDecimalValue(t.minute, 2);
    PyStr.PadDecimalValue(t.second, 2);
    PyStr.PadDecimalValue(t.microsecond / 10, 5);
  }

  // ---------------------------------------------------------------------
  // Record construction
  // ---------------------------------------------------------------------

  /** The values `get_football_markets` reads from one document, before the record is constructed. */
  datatype Fields = Fields(
    gameDate: string, gameTime: string, participants: Json, market: Json,
    selectionName: Json, price: Json, timeRetrieved: string, suspended: Json)

  /**
   * The field reads of `get_football_markets` in evaluation order; the first exception raised wins.
   * `doc['events'][0]` and the like are evaluated again on later lines in
   * the source; being pure, the second evaluation yields the same value.
   */
  function ReadFields(doc: Json, now: ClockReading): (r: Result<Fields, Exc>)
    ensures r.Ok? <==> WellFormed(doc)
  {
    var (gameDate, gameTime, participants) :- ReadEvent(doc);
    var (marketName, selectionName, price) :- ReadLabels(doc);
    var stamp := TimeRetrieved(now);
    var market := FirstOf(doc, "markets").value;
    var suspended := Get(market, "isSuspended", JBool(false)).value;
    Ok(Fields(gameDate, gameTime, participants, marketName, selectionName, price, stamp, suspended))
  }

  /** The event reads: date and time from the first event's `startDate`, then its participants label. */
  function ReadEvent(doc: Json): (r: Result<(string, string, Json), Exc>)
    ensures r.Ok? <==> EventReadable(doc)
  {
    var event :- FirstOf(doc, "events");
    var start :- Subscript(event, "startDate");
    var dateTime :- SplitStartDate(start);
    var participants := Get(event, "betSlipLine", JStr("Unknown Participants")).value;  // `event` is a dict here
    Ok((dateTime.0, GameTime(dateTime.1), participants))
  }

  /** The label reads: the market and selection labels and the American price. */
  function ReadLabels(doc: Json): (r: Result<(Json, Json, Json), Exc>)
    ensures r.Ok? <==> LabelsReadable(doc)
  {
    var market :- FirstOf(doc, "markets");
    var marketName :- Get(market, "betSlipLine", JStr("Unknown Market"));
    var selection :- FirstOf(doc, "selections");
    var selectionName :- Get(selection, "betSlipLine", JStr("Unknown Selection"));
    var displayOdds :- Subscript(selection, "displayOdds");
    var price :- Get(displayOdds, "american", JStr("N/A"));
    Ok((marketName, selectionName, price))
  }

  /** The reads and the `OddsModel(...)` call, with the constructor given its twelfth argument, `line`. */
  function BuildRecord(doc: Json, now: ClockReading, line: string): Result<OddsRecord, Exc> {
    var f :- ReadFields(doc, now);
    Ok(OddsRecord("DraftKings", "Football", "NFL", f.gameDate, f.gameTime, f.participants,
                  f.market, f.selectionName, f.price, f.timeRetrieved, f.suspended, line))
  }

  /**
   * The reads and the `OddsModel(...)` call as written: the call passes eleven positional
   * arguments to an initialiser with twelve parameters, so it raises
   * TypeError whenever it is reached.
   */
  function BuildRecordAsWritten(doc: Json, now: ClockReading): Result<OddsRecord, Exc> {
    var f :- ReadFields(doc, now);
    Err(TypeError)
  }

  /** The body of the per-id loop around a record builder: guard, then try, catching KeyError only. */
  function Settle(doc: Option<Json>, build: Json -> Result<OddsRecord, Exc>): (r: Outcome)
    ensures r.Aborted? ==> r.exc != KeyError
    ensures r == Skipped(MissingData) <==> Incomplete(doc) == Ok(false) && build(doc.value) == Err(KeyError)
    ensures Incomplete(doc) == Ok(false) && build(doc.value).Err? && build(doc.value).error != KeyError
            ==> r == Aborted(build(doc.value).error)
    ensures Incomplete(doc).Err? ==> r == Aborted(Incomplete(doc).error)
    ensures Incomplete(doc) == Ok(true) ==> r == Skipped(IncompleteData)
    ensures Incomplete(doc) == Ok(false) && build(doc.value).Ok? ==> r == Recorded(build(doc.value).value)
  {
    match Incomplete(doc)
    case Err(e) => Aborted(e)
    case Ok(skip) =>
      if skip then Skipped(IncompleteData)
      else
        match build(doc.value)
        case Ok(rec) => Recorded(rec)
        case Err(e) => if e == KeyError then Skipped(MissingData) else Aborted(e)
  }

  /** One iteration of the harvest loop for a fetched document, with the record's `line` supplied. */
  function Process(doc: Option<Json>, now: ClockReading, line: string): (r: Outcome)
    ensures doc.None? ==> r == Skipped(IncompleteData)
    ensures doc.Some? && doc.value.JObj? && !({"events", "markets", "selections"} <= doc.value.fields.Keys)
            ==> r == Skipped(IncompleteData)
    ensures r.Aborted? ==> r.exc != KeyError
    ensures Incomplete(doc).Err? ==> r == Aborted(TypeError)
    ensures Incomplete(doc) == Ok(true) ==> r == Skipped(IncompleteData)
    ensures Incomplete(doc) == Ok(false) && ReadFields(doc.value, now).Err? ==>
              var e := ReadFields(doc.value, now).error;
              r == (if e == KeyError then Skipped(MissingData) else Aborted(e))
    ensures Incomplete(doc) == Ok(false) && ReadFields(doc.value, now).Ok? ==> r.Recorded?
    ensures r.Recorded? ==> r.record.line == line && r.record.timeRetrieved == TimeRetrieved(now)
  {
    Settle(doc, d => BuildRecord(d, now, line))
  }

  /** One iteration of the harvest loop exactly as the source writes it. */
  function ProcessAsWritten(doc: Option<Json>, now: ClockReading): (r: Outcome)
    ensures !r.Recorded?
    ensures Incomplete(doc) == Ok(false) && ReadFields(doc.value, now).Ok? ==> r == Aborted(TypeError)
    ensures forall line :: !Process(doc, now, line).Recorded? ==> r == Process(doc, now, line)
  {
    Settle(doc, d => BuildRecordAsWritten(d, now))
  }

  // ---------------------------------------------------------------------
  // Properties of normalisation
  // ---------------------------------------------------------------------

  /**
   * A document a record can be built from: an object with the three lists,
   * each non-empty with an object first; the first event carries a string
   * `startDate` with exactly one 'T'; the first selection carries an object
   * `displayOdds`.
   */
  predicate WellFormed(doc: Json) {
    EventReadable(doc) && LabelsReadable(doc)
  }

  /** The first event is an object with a string `startDate` holding exactly one 'T'. */
  predicate EventReadable(doc: Json) {
    && doc.JObj? && "events" in doc.fields && FirstObject(doc.fields["events"])
    && var event := doc.fields["events"].items[0].fields;
    && "startDate" in event && event["startDate"].JStr?
    && PyStr.Count(event["startDate"].s, 'T') == 1
  }

  /** The first market and selection are objects, the selection with an object `displayOdds`. */
  predicate LabelsReadable(doc: Json) {
    && doc.JObj? && "markets" in doc.fields && "selections" in doc.fields
    && FirstObject(doc.fields["markets"]) && FirstObject(doc.fields["selections"])
    && var selection := doc.fields["selections"].items[0].fields;
    && "displayOdds" in selection && selection["displayOdds"].JObj?
  }

  /** A non-empty list whose first element is an object. */
  predicate FirstObject(v: Json) {
    v.JArr? && |v.items| > 0 && v.items[0].JObj?
  }

  /** Exactly the well-formed documents produce a record. */
  lemma RecordedIffWellFormed(doc: Json, now: ClockReading, line: string)
    ensures Process(Some(doc), now, line).Recorded? <==> WellFormed(doc)
  {
  }

  /**
   * The record built from a document: constant source identity; date and
   * time recovered from `startDate` (`date + "T" + rest == startDate`, the
   * time being `rest` up to its first '.'); labels and price read with their
   * documented defaults; suspension flag defaulting to false.
   */
  lemma RecordContents(doc: Json, now: ClockReading, line: string)
    requires WellFormed(doc)
    ensures var r := Process(Some(doc), now, line).record;
            var event := doc.fields["events"].items[0].fields;
            var market := doc.fields["markets"].items[0].fields;
            var selection := doc.fields["selections"].items[0].fields;
            var odds := selection["displayOdds"].fields;
            var start := event["startDate"].s;
            && r.sportsbook == "DraftKings" && r.sport == "Football" && r.leagueInfo == "NFL"
            && 'T' !in r.gameDate && '.' !in r.gameTime
            && (exists rest :: r.gameDate + "T" + rest == start && r.gameTime == GameTime(rest))
            && r.gameParticipants == (if "betSlipLine" in event then event["betSlipLine"] else JStr("Unknown Participants"))
            && r.market == (if "betSlipLine" in market then market["betSlipLine"] else JStr("Unknown Market"))
            && r.betSelectionName == (if "betSlipLine" in selection then selection["betSlipLine"] else JStr("Unknown Selection"))
            && r.price == (if "american" in odds then odds["american"] else JStr("N/A"))
            && r.suspended == (if "isSuspended" in market then market["isSuspended"] else JBool(false))
            && r.timeRetrieved == TimeRetrieved(now)
            && r.line == line
  {
    RecordedIffWellFormed(doc, now, line);
    var event := doc.fields["events"].items[0].fields;
    var dt := SplitStartDate(event["startDate"]).value;
    assert dt.0 + "T" + dt.1 == event["startDate"].s;
  }

  /** The key test is presence only: an empty `events` list passes it and then `[0]` raises IndexError. */
  lemma EmptyEventsAborts(doc: Json, now: ClockReading, line: string)
    requires doc.JObj? && {"events", "markets", "selections"} <= doc.fields.Keys
    requires doc.fields["events"] == JArr([])
    ensures Process(Some(doc), now, line) == Aborted(IndexError)
  {
  }

  /**
   * An `events` value that is neither a list, a dict nor a string (null, a
   * number, a bool) passes the guard, and `[0]` on it raises TypeError,
   * which the KeyError handler does not catch.
   */
  lemma ScalarEventsAborts(doc: Json, now: ClockReading, line: string)
    requires doc.JObj? && {"events", "markets", "selections"} <= doc.fields.Keys
    requires !(doc.fields["events"].JArr? || doc.fields["events"].JObj? || doc.fields["events"].JStr?)
    ensures Process(Some(doc), now, line) == Aborted(TypeError)
  {
  }

  /** A first event without `startDate` raises KeyError, which skips just this selection. */
  lemma MissingStartDateSkips(doc: Json, now: ClockReading, line: string)
    requires doc.JObj? && {"events", "markets", "selections"} <= doc.fields.Keys
    requires FirstObject(doc.fields["events"]) && "startDate" !in doc.fields["events"].items[0].fields
    ensures Process(Some(doc), now, line) == Skipped(MissingData)
  {
  }

  /** A `startDate` with no 'T', or with several, fails to unpack (ValueError) and aborts. */
  lemma BadStartDateAborts(doc: Json, now: ClockReading, line: string)
    requires doc.JObj? && {"events", "markets", "selections"} <= doc.fields.Keys
    requires FirstObject(doc.fields["events"])
    requires var event := doc.fields["events"].items[0].fields;
             "startDate" in event && event["startDate"].JStr? && PyStr.Count(event["startDate"].s, 'T') != 1
    ensures Process(Some(doc), now, line) == Aborted(ValueError)
  {
  }

  /** A first selection without `displayOdds` raises KeyError, which skips just this selection. */
  lemma MissingDisplayOddsSkips(doc: Json, now: ClockReading, line: string)
    requires doc.JObj? && {"events", "markets", "selections"} <= doc.fields.Keys
    requires FirstObject(doc.fields["events"]) && FirstObject(doc.fields["markets"])
    requires FirstObject(doc.fields["selections"])
    requires var event := doc.fields["events"].items[0].fields;
             "startDate" in event && event["startDate"].JStr? && PyStr.Count(event["startDate"].s, 'T') == 1
    requires "displayOdds" !in doc.fields["selections"].items[0].fields
    ensures Process(Some(doc), now, line) == Skipped(MissingData)
  {
  }

  /**
   * Where the corrected loop records, the loop as written raises TypeError
   * and aborts the harvest; everywhere else the two agree.
   */
  lemma ConstructorArityAborts(doc: Option<Json>, now: ClockReading, line: string)
    ensures Process(doc, now, line).Recorded? ==> ProcessAsWritten(doc, now) == Aborted(TypeError)
    ensures !Process(doc, now, line).Recorded? ==> ProcessAsWritten(doc, now) == Process(doc, now, line)
  {
  }

  // ---------------------------------------------------------------------
  // get_football_markets: the harvest loop
  // ---------------------------------------------------------------------

  /**
   * What happens to the i-th selection id `id` of a harvest: its detail
   * document is fetched and processed with the clock read at position `i`.
   */
  function Step(fetch: Json -> Option<Json>, clock: nat -> ClockReading, line: string): (nat, Json) -> Outcome {
    (i: nat, id: Json) => Process(fetch(id), clock(i), line)
  }

  /** The same, with each document processed exactly as the source writes it. */
  function StepAsWritten(fetch: Json -> Option<Json>, clock: nat -> ClockReading): (nat, Json) -> Outcome {
    (i: nat, id: Json) => ProcessAsWritten(fetch(id), clock(i))
  }

  /**
   * One call of `get_football_markets`: the ids fetched, in order; the
   * records returned, or the exception that escaped; and the list handed to
   * `_write_to_file`, if it was called.
   */
  datatype HarvestRun = HarvestRun(
    fetched: seq<Json>,
    result: Result<seq<OddsRecord>, Exc>,
    written: Option<seq<OddsRecord>>)

  /**
   * The outcome of the loop over `ids`, where `step(i, id)` is what happens
   * to the i-th id. It fails exactly when some id aborts; then the ids are
   * fetched in order up to and including the first abort, whose exception
   * escapes. Otherwise every id is fetched once, in order, and `origin[k]`
   * is the position of the id record `k` came from: records follow id order,
   * at most one per id, and every id not recorded was skipped.
   */
  predicate LoopResult(ids: seq<Json>, step: (nat, Json) -> Outcome, fetched: seq<Json>,
                       result: Result<seq<OddsRecord>, Exc>, origin: seq<nat>) {
    && (result.Err? <==> exists i :: 0 <= i < |ids| && step(i, ids[i]).Aborted?)
    && (result.Err? ==>
          && 0 < |fetched| <= |ids|
          && fetched == ids[..|fetched|]
          && step(|fetched| - 1, ids[|fetched| - 1]) == Aborted(result.error)
          && forall j :: 0 <= j < |fetched| - 1 ==> !step(j, ids[j]).Aborted?)
    && (result.Ok? ==>
          && fetched == ids
          && |origin| == |result.value| <= |ids|
          && (forall k :: 0 <= k < |origin| ==>
                origin[k] < |ids| && step(origin[k], ids[origin[k]]) == Recorded(result.value[k]))
          && (forall k, l :: 0 <= k < l < |origin| ==> origin[k] < origin[l])
          && (forall j :: 0 <= j < |ids| && j !in origin ==> step(j, ids[j]).Skipped?))
  }

  /**
   * `get_football_markets`. With no ids it returns `[]` without writing. An
   * exception from id extraction escapes before any fetch. Otherwise the
   * loop runs as `LoopResult` describes, with each id fetched and processed;
   * a completed loop writes the full list once, even when it is empty, and
   * returns it, and an escaped exception leaves nothing written.
   */
  method GetFootballMarkets(listing: Option<Json>, fetch: Json -> Option<Json>,
                            clock: nat -> ClockReading, line: string)
    returns (run: HarvestRun, ghost origin: seq<nat>)
    ensures FetchSelectionIds(listing).Err? ==> run == HarvestRun([], Err(FetchSelectionIds(listing).error), None)
    ensures FetchSelectionIds(listing) == Ok([]) ==> run == HarvestRun([], Ok([]), None)
    ensures FetchSelectionIds(listing).Ok? && |FetchSelectionIds(listing).value| > 0 ==>
              && LoopResult(FetchSelectionIds(listing).value, Step(fetch, clock, line), run.fetched, run.result, origin)
              && run.written == (if run.result.Ok? then Some(run.result.value) else None)
  {
    origin := [];
    var listed := FetchSelectionIds(listing);
    if listed.Err? {
      return HarvestRun([], Err(listed.error), None), origin;
    }
    var ids := listed.value;
    if |ids| == 0 {
      return HarvestRun([], Ok([]), None), origin;
    }
    var fetched, result;
    fetched, result, origin := HarvestLoop(ids, Step(fetch, clock, line));
    var written := if result.Ok? then Some(result.value) else None;
    run := HarvestRun(fetched, result, written);
  }

  /** The `for selection_id in selection_ids` loop, over any per-id step. */
  method HarvestLoop(ids: seq<Json>, step: (nat, Json) -> Outcome)
    returns (fetched: seq<Json>, result: Result<seq<OddsRecord>, Exc>, ghost origin: seq<nat>)
    ensures result.Err? <==> exists i :: 0 <= i < |ids| && step(i, ids[i]).Aborted?
    ensures result.Ok? ==> fetched == ids && |result.value| <= |ids|
    ensures LoopResult(ids, step, fetched, result, origin)
  {
    origin := [];
    var rows: seq<OddsRecord> := [];
    fetched := [];
    var i := 0;
    while i < |ids|
      invariant 0 <= i <= |ids|
      invariant fetched == ids[..i]
      invariant |origin| == |rows| <= i
      invariant forall k :: 0 <= k < |origin| ==>
                  origin[k] < i && step(origin[k], ids[origin[k]]) == Recorded(rows[k])
      invariant forall k, l :: 0 <= k < l < |origin| ==> origin[k] < origin[l]
      invariant forall j :: 0 <= j < i ==> !step(j, ids[j]).Aborted?
      invariant forall j :: 0 <= j < i && j !in origin ==> step(j, ids[j]).Skipped?
    {
      fetched := fetched + [ids[i]];
      match step(i, ids[i]) {
        case Recorded(rec) =>
          rows := rows + [rec];
          origin := origin + [i];
        case Skipped(_) =>
        case Aborted(e) =>
          assert fetched == ids[..i + 1];
          return fetched, Err(e), origin;
      }
      i := i + 1;
    }
    assert fetched == ids;
    result := Ok(rows);
  }

  /** Positions in a strictly increasing list of positions are at least their index. */
  lemma {:induction false} IncreasingAtLeastIndex(origin: seq<nat>, k: nat)
    requires forall i, j :: 0 <= i < j < |origin| ==> origin[i] < origin[j]
    requires k < |origin|
    ensures origin[k] >= k
    decreases k
  {
    if k > 0 {
      IncreasingAtLeastIndex(origin, k - 1);
    }
  }

  /** A strictly increasing list of positions below `n` that hits every one of them is 0, 1, 2, ... */
  lemma {:induction false} IncreasingCover(origin: seq<nat>, n: nat, k: nat)
    requires forall i, j :: 0 <= i < j < |origin| ==> origin[i] < origin[j]
    requires forall i :: 0 <= i < |origin| ==> origin[i] < n
    requires forall j :: 0 <= j < n ==> j in origin
    requires k < |origin|
    ensures forall i :: 0 <= i <= k ==> origin[i] == i
    decreases k
  {
    if k > 0 {
      IncreasingCover(origin, n, k - 1);
    }
    IncreasingAtLeastIndex(origin, k);
    assert k < n;
    assert k in origin;
    var m :| 0 <= m < |origin| && origin[m] == k;
    IncreasingAtLeastIndex(origin, m);
  }

  /**
   * When every id records, the loop returns one record per id, in id order:
   * the i-th record is the i-th id's.
   */
  lemma AllRecorded(ids: seq<Json>, step: (nat, Json) -> Outcome, fetched: seq<Json>,
                    result: Result<seq<OddsRecord>, Exc>, origin: seq<nat>)
    requires LoopResult(ids, step, fetched, result, origin)
    requires forall i :: 0 <= i < |ids| ==> step(i, ids[i]).Recorded?
    ensures result.Ok? && fetched == ids && |result.value| == |ids|
    ensures forall i :: 0 <= i < |ids| ==> result.value[i] == step(i, ids[i]).record
  {
    assert forall j :: 0 <= j < |ids| ==> j in origin;
    if |origin| > 0 {
      IncreasingCover(origin, |ids|, |origin| - 1);
    }
    if |ids| > 0 {
      var last := |ids| - 1;
      assert last in origin;
      var m :| 0 <= m < |origin| && origin[m] == last;
    }
  }

  /** A two-id harvest in which both ids record returns both records, in id order. */
  lemma TwoRecorded(ids: seq<Json>, step: (nat, Json) -> Outcome, fetched: seq<Json>,
                    result: Result<seq<OddsRecord>, Exc>, origin: seq<nat>, first: OddsRecord, second: OddsRecord)
    requires LoopResult(ids, step, fetched, result, origin)
    requires |ids| == 2 && step(0, ids[0]) == Recorded(first) && step(1, ids[1]) == Recorded(second)
    ensures fetched == ids && result == Ok([first, second])
  {
    AllRecorded(ids, step, fetched, result, origin);
    assert result.value == [result.value[0], result.value[1]];
  }

  // ---------------------------------------------------------------------
  // _write_to_file: the rows emitted
  // ---------------------------------------------------------------------

  /** One line of the CSV output, before quoting and encoding. */
  datatype CsvLine = HeaderLine(names: seq<string>) | DataLine(cells: seq<Json>)

  /**
   * `csv.DictWriter(fieldnames).writerow(d)`: a key outside the field names
   * raises ValueError; otherwise the values in field-name order, a missing
   * key giving the empty string.
   */
  function DictRow(fieldnames: seq<string>, d: map<string, Json>): (r: Result<seq<Json>, Exc>)
    ensures r.Err? <==> exists k :: k in d && k !in fieldnames
    ensures r.Err? ==> r.error == ValueError
    ensures r.Ok? ==> |r.value| == |fieldnames|
    ensures r.Ok? ==> forall i :: 0 <= i < |fieldnames| && fieldnames[i] in d ==> r.value[i] == d[fieldnames[i]]
    ensures r.Ok? ==> forall i :: 0 <= i < |fieldnames| && fieldnames[i] !in d ==> r.value[i] == JStr("")
  {
    if exists k :: k in d && k !in fieldnames then Err(ValueError)
    else Ok(seq(|fieldnames|, i requires 0 <= i < |fieldnames| =>
                  if fieldnames[i] in d then d[fieldnames[i]] else JStr("")))
  }

  /** `writer.writerow(d)` for each dict in turn; the first rejected dict raises. */
  function WriteRows(fieldnames: seq<string>, dicts: seq<map<string, Json>>): Result<seq<CsvLine>, Exc> {
    if |dicts| == 0 then Ok([])
    else
      var cells :- DictRow(fieldnames, dicts[0]);
      var rest :- WriteRows(fieldnames, dicts[1..]);
      Ok([DataLine(cells)] + rest)
  }

  /** The cells of a record's row, by column. */
  function Cells(r: OddsRecord): (cells: seq<Json>)
    ensures |cells| == FieldCount
    ensures forall i :: 0 <= i < FieldCount ==> cells[i] == Column(r, i)
  {
    seq(FieldCount, i requires 0 <= i < FieldCount => Column(r, i))
  }

  /** A dict whose keys are exactly the field names is written as its values in field-name order. */
  lemma DictRowExact(names: seq<string>, d: map<string, Json>)
    requires forall k :: k in d <==> k in names
    ensures DictRow(names, d) == Ok(seq(|names|, i requires 0 <= i < |names| => d[names[i]]))
  {
    assert !exists k :: k in d && k !in names;
    var row := DictRow(names, d).value;
    var expected := seq(|names|, i requires 0 <= i < |names| => d[names[i]]);
    assert forall i :: 0 <= i < |names| ==> row[i] == expected[i];
    assert row == expected;
  }

  /** A record's dict has exactly the header's keys, so `writerow` accepts it and lays it out by column. */
  lemma DictRowOfRecord(r: OddsRecord)
    ensures DictRow(FieldNames(), ToDict(r)) == Ok(Cells(r))
  {
    var names := FieldNames();
    var d := ToDict(r);
    DictRowExact(names, d);
    assert seq(|names|, i requires 0 <= i < |names| => d[names[i]]) == Cells(r);
  }

  /** Writing dicts that all fit the header never raises and emits their rows in order. */
  lemma {:induction false} WriteRowsFits(names: seq<string>, dicts: seq<map<string, Json>>, rows: seq<seq<Json>>)
    requires |rows| == |dicts|
    requires forall k :: 0 <= k < |dicts| ==> DictRow(names, dicts[k]) == Ok(rows[k])
    ensures WriteRows(names, dicts) == Ok(seq(|rows|, k requires 0 <= k < |rows| => DataLine(rows[k])))
  {
    var expected := seq(|rows|, k requires 0 <= k < |rows| => DataLine(rows[k]));
    if |dicts| > 0 {
      assert DictRow(names, dicts[0]) == Ok(rows[0]);
      assert forall k :: 0 <= k < |dicts| - 1 ==> dicts[1..][k] == dicts[k + 1] && rows[1..][k] == rows[k + 1];
      WriteRowsFits(names, dicts[1..], rows[1..]);
      var rest := WriteRows(names, dicts[1..]).value;
      var lines := [DataLine(rows[0])] + rest;
      assert WriteRows(names, dicts) == Ok(lines);
      assert forall k :: 0 <= k < |rows| ==> lines[k] == expected[k];
      assert lines == expected;
    } else {
      assert expected == [];
    }
  }

  /** Each record's dict, written under the header, gives that record's cells. */
  lemma RowsFitHeader(records: seq<OddsRecord>)
    ensures forall k :: 0 <= k < |records| ==> DictRow(FieldNames(), ToDict(records[k])) == Ok(Cells(records[k]))
  {
    forall k | 0 <= k < |records|
      ensures DictRow(FieldNames(), ToDict(records[k])) == Ok(Cells(records[k]))
    {
      DictRowOfRecord(records[k]);
    }
  }

  /** The `to_dict()` of each record, in order. */
  function Dicts(records: seq<OddsRecord>): (ds: seq<map<string, Json>>)
    ensures |ds| == |records|
  {
    seq(|records|, k requires 0 <= k < |records| => ToDict(records[k]))
  }

  /** The records' dicts are written as one data line per record holding its cells. */
  lemma WriteRecordRows(records: seq<OddsRecord>)
    ensures WriteRows(FieldNames(), Dicts(records)).Ok?
    ensures var lines := WriteRows(FieldNames(), Dicts(records)).value;
            && |lines| == |records|
            && forall k :: 0 <= k < |records| ==> lines[k] == DataLine(Cells(records[k]))
  {
    var cells := seq(|records|, k requires 0 <= k < |records| => Cells(records[k]));
    RowsFitHeader(records);
    WriteRowsFits(FieldNames(), Dicts(records), cells);
  }

  /**
   * `_write_to_file`: nothing for an empty list; otherwise the header
   * `get_fieldnames()`, then one row per record in order, each holding the
   * record's value for every header column.
   */
  function WriteToFile(records: seq<OddsRecord>): (r: Result<seq<CsvLine>, Exc>)
    ensures |records| == 0 ==> r == Ok([])
    ensures |records| > 0 ==> r.Ok? && |r.value| == |records| + 1 && r.value[0] == HeaderLine(FieldNames())
    ensures r.Ok? && |records| > 0 ==>
              forall k :: 0 <= k < |records| ==>
                && r.value[k + 1].DataLine?
                && |r.value[k + 1].cells| == |FieldNames()|
                && forall i :: 0 <= i < FieldCount ==> r.value[k + 1].cells[i] == Column(records[k], i)
  {
    if |records| == 0 then Ok([])
    else
      WriteRecordRows(records);
      Ok([HeaderLine(FieldNames())] + WriteRows(FieldNames(), Dicts(records)).value)
  }

  // ---------------------------------------------------------------------
  // The scenarios of the test suite
  // ---------------------------------------------------------------------

  /** The enumeration body the tests mock: two selections with ids "12345" and "67890". */
  function SampleListing(): Json {
    JObj(map["selections" := JArr([JObj(map["id" := JStr("12345")]), JObj(map["id" := JStr("67890")])])])
  }

  /** A detail document of the shape the tests mock, with its leaf values as parameters. */
  function DetailDoc(start: Json, participants: Json, market: Json, suspended: Json,
                     selection: Json, american: Json): Json {
    JObj(map[
      "events" := JArr([EventDoc(start, participants)]),
      "markets" := JArr([MarketDoc(market, suspended)]),
      "selections" := JArr([SelectionDoc(selection, american)])
    ])
  }

  function EventDoc(start: Json, participants: Json): Json {
    JObj(map["startDate" := start, "betSlipLine" := participants])
  }

  function MarketDoc(market: Json, suspended: Json): Json {
    JObj(map["betSlipLine" := market, "isSuspended" := suspended])
  }

  function SelectionDoc(selection: Json, american: Json): Json {
    JObj(map["betSlipLine" := selection, "displayOdds" := JObj(map["american" := american])])
  }

  /** The detail body the tests mock for every selection. */
  function SampleDetail(): Json {
    DetailDoc(JStr("2024-10-20T18:00:00.000Z"), JStr("Team A vs Team B"), JStr("Spread"), JBool(false),
              JStr("Team A -3.5"), JStr("-110"))
  }

  /** The mocked enumeration yields the two ids in document order. */
  lemma SampleListingIds()
    ensures FetchSelectionIds(Some(SampleListing())) == Ok([JStr("12345"), JStr("67890")])
  {
    var items := SampleListing().fields["selections"].items;
    assert items[0].fields["id"] == JStr("12345") && items[1].fields["id"] == JStr("67890");
    var r := FetchSelectionIds(Some(SampleListing()));
    assert r.Ok? && |r.value| == 2;
    assert r.value == [r.value[0], r.value[1]];
  }

  /** A start date with exactly one 'T' splits into the text on either side of it. */
  lemma {:induction false} StartDateHalves(date: string, rest: string)
    requires 'T' !in date && 'T' !in rest
    ensures SplitStartDate(JStr(date + "T" + rest)) == Ok((date, rest))
  {
    PyStr.SplitAfterFreePrefix(date, rest, 'T');
    var tail := PyStr.Split(rest, 'T');
    assert |tail| == 1;
    assert tail == [rest];
    assert PyStr.Split(date + "T" + rest, 'T') == [date, rest];
  }

  /** "2024-10-20T18:00:00.000Z" splits on 'T' into "2024-10-20" and "18:00:00.000Z". */
  lemma SampleStartDate()
    ensures SplitStartDate(JStr("2024-10-20T18:00:00.000Z")) == Ok(("2024-10-20", "18:00:00.000Z"))
  {
    var date, rest := "2024-10-20", "18:00:00.000Z";
    assert 'T' !in date && 'T' !in rest;
    assert date + "T" + rest == "2024-10-20T18:00:00.000Z";
    StartDateHalves(date, rest);
  }

  /** The time part "18:00:00.000Z" loses its fraction and zone: "18:00:00". */
  lemma SampleGameTime()
    ensures GameTime("18:00:00.000Z") == "18:00:00"
  {
    var time, fraction := "18:00:00", "000Z";
    assert '.' !in time;
    assert time + ['.'] + fraction == "18:00:00.000Z";
    PyStr.SplitAfterFreePrefix(time, fraction, '.');
  }

  /** Each field read on a mocked-shape document finds the value placed there. */
  lemma DetailDocReads(start: Json, participants: Json, market: Json, suspended: Json,
                       selection: Json, american: Json)
    ensures var doc := DetailDoc(start, participants, market, suspended, selection, american);
            && FirstOf(doc, "events") == Ok(EventDoc(start, participants))
            && FirstOf(doc, "markets") == Ok(MarketDoc(market, suspended))
            && FirstOf(doc, "selections") == Ok(SelectionDoc(selection, american))
    ensures Subscript(EventDoc(start, participants), "startDate") == Ok(start)
    ensures Get(EventDoc(start, participants), "betSlipLine", JStr("Unknown Participants")) == Ok(participants)
    ensures Get(MarketDoc(market, suspended), "betSlipLine", JStr("Unknown Market")) == Ok(market)
    ensures Get(MarketDoc(market, suspended), "isSuspended", JBool(false)) == Ok(suspended)
    ensures Get(SelectionDoc(selection, american), "betSlipLine", JStr("Unknown Selection")) == Ok(selection)
    ensures Subscript(SelectionDoc(selection, american), "displayOdds") == Ok(JObj(map["american" := american]))
    ensures Get(JObj(map["american" := american]), "american", JStr("N/A")) == Ok(american)
  {
  }

  /** A mocked-shape document whose start date has one 'T' reads into its leaf values. */
  lemma DetailDocFields(date: string, rest: string, participants: Json, market: Json, suspended: Json,
                        selection: Json, american: Json, now: ClockReading)
    requires 'T' !in date && 'T' !in rest
    ensures ReadFields(DetailDoc(JStr(date + "T" + rest), participants, market, suspended, selection, american), now)
            == Ok(Fields(date, GameTime(rest), participants, market, selection, american, TimeRetrieved(now), suspended))
  {
    StartDateHalves(date, rest);
    DetailDocReads(JStr(date + "T" + rest), participants, market, suspended, selection, american);
  }

  /** A detail document of the mocked shape yields its leaf values, the start date split at its 'T'. */
  lemma DetailDocRecorded(date: string, rest: string, participants: Json, market: Json, suspended: Json,
                          selection: Json, american: Json, now: ClockReading, line: string)
    requires 'T' !in date && 'T' !in rest
    ensures Process(Some(DetailDoc(JStr(date + "T" + rest), participants, market, suspended, selection, american)), now, line)
            == Recorded(OddsRecord("DraftKings", "Football", "NFL", date, GameTime(rest), participants,
                                   market, selection, american, TimeRetrieved(now), suspended, line))
  {
    var doc := DetailDoc(JStr(date + "T" + rest), participants, market, suspended, selection, american);
    assert Incomplete(Some(doc)) == Ok(false);
    DetailDocFields(date, rest, participants, market, suspended, selection, american, now);
  }

  /** With the constructor given `line`, the mocked detail yields the record the tests expect. */
  lemma SampleDetailRecorded(now: ClockReading, line: string)
    ensures Process(Some(SampleDetail()), now, line)
            == Recorded(OddsRecord("DraftKings", "Football", "NFL", "2024-10-20", "18:00:00",
                                   JStr("Team A vs Team B"), JStr("Spread"), JStr("Team A -3.5"),
                                   JStr("-110"), TimeRetrieved(now), JBool(false), line))
  {
    var date, rest := "2024-10-20", "18:00:00.000Z";
    assert 'T' !in date && 'T' !in rest;
    assert date + "T" + rest == "2024-10-20T18:00:00.000Z";
    SampleGameTime();
    DetailDocRecorded(date, rest, JStr("Team A vs Team B"), JStr("Spread"), JBool(false),
                      JStr("Team A -3.5"), JStr("-110"), now, line);
  }

  /** As written, the mocked detail reaches the eleven-argument constructor call and raises TypeError. */
  lemma SampleDetailAbortsAsWritten(now: ClockReading)
    ensures ProcessAsWritten(Some(SampleDetail()), now) == Aborted(TypeError)
  {
    SampleDetailRecorded(now, "");
    ConstructorArityAborts(Some(SampleDetail()), now, "");
  }

  /** The record the tests expect from the mocked detail, stamped at `now` and tagged `line`. */
  function SampleRecord(now: ClockReading, line: string): OddsRecord {
    OddsRecord("DraftKings", "Football", "NFL", "2024-10-20", "18:00:00",
               JStr("Team A vs Team B"), JStr("Spread"), JStr("Team A -3.5"),
               JStr("-110"), TimeRetrieved(now), JBool(false), line)
  }

  /** The mocked detail endpoint: every id answers the same detail document. */
  function SampleFetch(): Json -> Option<Json> {
    _ => Some(SampleDetail())
  }

  /** Each id of the mocked harvest records the expected record, stamped at its own clock reading. */
  lemma SampleStep(clock: nat -> ClockReading, line: string, i: nat, id: Json)
    ensures Step(SampleFetch(), clock, line)(i, id) == Recorded(SampleRecord(clock(i), line))
    ensures StepAsWritten(SampleFetch(), clock)(i, id) == Aborted(TypeError)
  {
    SampleDetailRecorded(clock(i), line);
    SampleDetailAbortsAsWritten(clock(i));
  }

  /**
   * The end-to-end scenario: ids "12345" and "67890", every fetch answering
   * the mocked detail, records tagged with any `line`. The harvest fetches both ids and
   * returns two records, one per id in order, each stamped at its own clock
   * reading.
   */
  lemma SampleHarvest(clock: nat -> ClockReading, line: string, fetched: seq<Json>,
                      result: Result<seq<OddsRecord>, Exc>, origin: seq<nat>)
    requires LoopResult([JStr("12345"), JStr("67890")], Step(SampleFetch(), clock, line),
                        fetched, result, origin)
    ensures fetched == [JStr("12345"), JStr("67890")]
    ensures result == Ok([SampleRecord(clock(0), line), SampleRecord(clock(1), line)])
  {
    var ids := [JStr("12345"), JStr("67890")];
    SampleStep(clock, line, 0, ids[0]);
    SampleStep(clock, line, 1, ids[1]);
    TwoRecorded(ids, Step(SampleFetch(), clock, line), fetched, result, origin,
                SampleRecord(clock(0), line), SampleRecord(clock(1), line));
  }

  /**
   * The same scenario as the source is written: the first id is fetched, its
   * constructor call raises TypeError, and nothing more is fetched.
   */
  lemma SampleHarvestAsWritten(clock: nat -> ClockReading, fetched: seq<Json>,
                               result: Result<seq<OddsRecord>, Exc>, origin: seq<nat>)
    requires LoopResult([JStr("12345"), JStr("67890")], StepAsWritten(SampleFetch(), clock),
                        fetched, result, origin)
    ensures fetched == [JStr("12345")]
    ensures result == Err(TypeError)
  {
    var ids := [JStr("12345"), JStr("67890")];
    SampleStep(clock, "", 0, ids[0]);
  }
}

=== FILE: odds_model.dfy ===
/**
 * The normalised odds record (`OddsModel`): twelve immutable fields, their
 * column names and the dict form handed to the CSV writer. The accessors of
 * the Python class are the datatype's destructors, so each returns its
 * constructor argument unchanged by construction.
 */
module OddsModel {
  import PyJson

  type Json = PyJson.Json

  /**
   * One odds record. The fields read with `.get` from the source document
   * keep whatever JSON value was found there (or the default), so they are
   * JSON values; the others are strings the client computes itself.
   */
  datatype OddsRecord = OddsRecord(
    sportsbook: string,
    sport: string,
    leagueInfo: string,
    gameDate: string,
    gameTime: string,
    gameParticipants: Json,
    market: Json,
    betSelectionName: Json,
    price: Json,
    timeRetrieved: string,
    suspended: Json,
    line: string)

  /** Number of columns of a record. */
  const FieldCount: nat := 12

  /** `get_fieldnames()`: the column names, in column order. */
  function FieldNames(): (names: seq<string>)
    ensures |names| == FieldCount
    ensures names[0] == "sportsbook"
    ensures names[FieldCount - 2] == "suspended" && names[FieldCount - 1] == "line"
    ensures forall i, j :: 0 <= i < j < |names| ==> names[i] != names[j]
  {
    ["sportsbook", "sport", "league_info", "game_date", "game_time",
     "game_participants", "market", "bet_selection_name", "price",
     "time_retrieved", "suspended", "line"]
  }

  /** The value of column `i` of `r`, read through the accessor of that column. */
  function Column(r: OddsRecord, i: nat): Json
    requires i < FieldCount
  {
    match i
    case 0 => PyJson.JStr(r.sportsbook)
    case 1 => PyJson.JStr(r.sport)
    case 2 => PyJson.JStr(r.leagueInfo)
    case 3 => PyJson.JStr(r.gameDate)
    case 4 => PyJson.JStr(r.gameTime)
    case 5 => r.gameParticipants
    case 6 => r.market
    case 7 => r.betSelectionName
    case 8 => r.price
    case 9 => PyJson.JStr(r.timeRetrieved)
    case 10 => r.suspended
    case _ => PyJson.JStr(r.line)
  }

  /**
   * `to_dict()`: a dict literal written independently of `get_fieldnames`.
   * Its keys are exactly the column names, and each column name maps to the
   * value of the accessor for that column.
   */
  function ToDict(r: OddsRecord): (d: map<string, Json>)
    ensures forall k :: k in d <==> k in FieldNames()
    ensures forall i :: 0 <= i < FieldCount ==> d[FieldNames()[i]] == Column(r, i)
  {
    var d := map[
      "sportsbook" := PyJson.JStr(r.sportsbook),
      "sport" := PyJson.JStr(r.sport),
      "league_info" := PyJson.JStr(r.leagueInfo),
      "game_date" := PyJson.JStr(r.gameDate),
      "game_time" := PyJson.JStr(r.gameTime),
      "game_participants" := r.gameParticipants,
      "market" := r.market,
      "bet_selection_name" := r.betSelectionName,
      "price" := r.price,
      "time_retrieved" := PyJson.JStr(r.timeRetrieved),
      "suspended" := r.suspended,
      "line" := PyJson.JStr(r.line)];
    assert forall i :: 0 <= i < FieldCount ==> d[FieldNames()[i]] == Column(r, i);
    d
  }

  /** `to_dict` loses nothing: two records with the same dict are the same record. */
  lemma ToDictInjective(r1: OddsRecord, r2: OddsRecord)
    requires ToDict(r1) == ToDict(r2)
    ensures r1 == r2
  {
    forall i | 0 <= i < FieldCount
      ensures Column(r1, i) == Column(r2, i)
    {
      SameColumn(r1, r2, i);
    }
    ColumnsDetermineRecord(r1, r2);
  }

  lemma SameColumn(r1: OddsRecord, r2: OddsRecord, i: nat)
    requires ToDict(r1) == ToDict(r2)
    requires i < FieldCount
    ensures Column(r1, i) == Column(r2, i)
  {
    assert ToDict(r1)[FieldNames()[i]] == ToDict(r2)[FieldNames()[i]];
  }

  lemma ColumnsDetermineRecord(r1: OddsRecord, r2: OddsRecord)
    requires forall i :: 0 <= i < FieldCount ==> Column(r1, i) == Column(r2, i)
    ensures r1 == r2
  {
    assert Column(r1, 0) == Column(r2, 0) && Column(r1, 1) == Column(r2, 1);
    assert Column(r1, 2) == Column(r2, 2) && Column(r1, 3) == Column(r2, 3);
    assert Column(r1, 4) == Column(r2, 4) && Column(r1, 5) == Column(r2, 5);
    assert Column(r1, 6) == Column(r2, 6) && Column(r1, 7) == Column(r2, 7);
    assert Column(r1, 8) == Column(r2, 8) && Column(r1, 9) == Column(r2, 9);
    assert Column(r1, 10) == Column(r2, 10) && Column(r1, 11) == Column(r2, 11);
  }
}

=== FILE: pyjson.dfy ===
/**
 * A parsed JSON body as the client sees it (the value `response.json()`
 * returns), and the Python operations the client applies to it. Each
 * operation that can raise returns `Err` with the exception class Python
 * would raise. JSON numbers are modelled as integers.
 */
module PyJson {
  import opened Wrappers
  import PyStr

  datatype Json =
    | JNull
    | JBool(b: bool)
    | JNum(n: int)
    | JStr(s: string)
    | JArr(items: seq<Json>)
    | JObj(fields: map<string, Json>)

  /** The exception classes the client code can raise on a JSON value. */
  datatype Exc = KeyError | IndexError | TypeError | ValueError | AttributeError

  /** Python truthiness: `None`, `False`, `0`, `""`, `[]` and `{}` are falsy. */
  predicate Truthy(v: Json) {
    match v
    case JNull => false
    case JBool(b) => b
    case JNum(n) => n != 0
    case JStr(s) => |s| > 0
    case JArr(a) => |a| > 0
    case JObj(m) => |m| > 0
  }

  /**
   * `key in v`: key membership for a dict, element membership for a list,
   * substring test for a string; any other value is not a container.
   */
  function Contains(v: Json, key: string): (r: Result<bool, Exc>)
    ensures r.Err? <==> !(v.JObj? || v.JArr? || v.JStr?)
    ensures r.Err? ==> r.error == TypeError
    ensures v.JObj? ==> r == Ok(key in v.fields)
    ensures v.JArr? ==> r == Ok(JStr(key) in v.items)
    ensures v.JStr? ==> r == Ok(PyStr.IsSubstring(key, v.s))
  {
    match v
    case JObj(m) => Ok(key in m)
    case JArr(a) => Ok(JStr(key) in a)
    case JStr(s) => Ok(PyStr.IsSubstring(key, s))
    case _ => Err(TypeError)
  }

  /** `v[key]` with a string key: only a dict holding `key` succeeds. */
  function Subscript(v: Json, key: string): (r: Result<Json, Exc>)
    ensures r.Ok? <==> v.JObj? && key in v.fields
    ensures r.Ok? ==> r.value == v.fields[key]
    ensures r.Err? ==> (r.error == KeyError <==> v.JObj?)
    ensures r.Err? ==> r.error in {KeyError, TypeError}
  {
    match v
    case JObj(m) => if key in m then Ok(m[key]) else Err(KeyError)
    case _ => Err(TypeError)
  }

  /**
   * `v[0]`: the first element of a non-empty list or string. An empty list or
   * string raises IndexError; a dict raises KeyError, since the integer 0 is
   * never a key of a JSON object; scalars are not subscriptable.
   */
  function First(v: Json): (r: Result<Json, Exc>)
    ensures v.JArr? ==> r == (if |v.items| > 0 then Ok(v.items[0]) else Err(IndexError))
    ensures v.JObj? ==> r == Err(KeyError)
    ensures v.JStr? ==> r == (if |v.s| > 0 then Ok(JStr(v.s[..1])) else Err(IndexError))
    ensures !(v.JArr? || v.JObj? || v.JStr?) ==> r == Err(TypeError)
    ensures r.Err? && r.error == IndexError ==> v in {JArr([]), JStr("")}
    ensures r.Err? ==> r.error in {KeyError, IndexError, TypeError}
  {
    match v
    case JArr(a) => if |a| > 0 then Ok(a[0]) else Err(IndexError)
    case JObj(_) => Err(KeyError)
    case JStr(s) => if |s| > 0 then Ok(JStr(s[..1])) else Err(IndexError)
    case _ => Err(TypeError)
  }

  /** `v.get(key, default)`: only dicts have `get`. */
  function Get(v: Json, key: string, default: Json): (r: Result<Json, Exc>)
    ensures r.Ok? <==> v.JObj?
    ensures r.Err? ==> r.error == AttributeError
    ensures v.JObj? && key in v.fields ==> r == Ok(v.fields[key])
    ensures v.JObj? && key !in v.fields ==> r == Ok(default)
  {
    match v
    case JObj(m) => Ok(if key in m then m[key] else default)
    case _ => Err(AttributeError)
  }
}

=== FILE: pystr.dfy ===
/**
 * The few Python string operations the client relies on: `str.split` with a
 * one-character separator, its inverse `str.join`, and zero-padded decimal
 * formatting as produced by `strftime`.
 */
module PyStr {

  /** Number of occurrences of `c` in `s`. */
  function Count(s: string, c: char): (n: nat)
    ensures n <= |s|
    ensures n == 0 <==> c !in s
  {
    if |s| == 0 then 0 else (if s[0] == c then 1 else 0) + Count(s[1..], c)
  }

  /** `c.join(parts)`. */
  function Join(parts: seq<string>, c: char): string
  {
    if |parts| == 0 then ""
    else if |parts| == 1 then parts[0]
    else parts[0] + [c] + Join(parts[1..], c)
  }

  /**
   * `s.split(c)`: the pieces between consecutive occurrences of `c`. There is
   * always one more piece than there are separators, no piece contains the
   * separator, and joining the pieces back with `c` gives `s` again.
   */
  function Split(s: string, c: char): (parts: seq<string>)
    ensures |parts| == Count(s, c) + 1
    ensures forall i :: 0 <= i < |parts| ==> c !in parts[i]
    ensures Join(parts, c) == s
  {
    if |s| == 0 then [""]
    else
      var rest := Split(s[1..], c);
      if s[0] == c then
        [""] + rest
      else
        var parts := [[s[0]] + rest[0]] + rest[1..];
        assert parts[1..] == rest[1..];
        assert s == [s[0]] + s[1..];
        parts
  }

  /**
   * The first piece of `s.split(c)` is the longest prefix of `s` free of `c`:
   * it is all of `s` when `c` does not occur, and otherwise it stops right
   * before the first `c`.
   */
  lemma {:induction false} SplitFirstPiece(s: string, c: char)
    ensures Split(s, c)[0] <= s
    ensures c !in s ==> Split(s, c)[0] == s
    ensures c in s ==> |Split(s, c)[0]| < |s| && s[|Split(s, c)[0]|] == c
  {
    if |s| > 0 {
      SplitFirstPiece(s[1..], c);
      assert s == [s[0]] + s[1..];
    }
  }

  /** A separator after a separator-free prefix ends the first piece there. */
  lemma {:induction false} SplitAfterFreePrefix(a: string, b: string, c: char)
    requires c !in a
    ensures Split(a + [c] + b, c) == [a] + Split(b, c)
  {
    var s := a + [c] + b;
    if |a| > 0 {
      assert s[1..] == a[1..] + [c] + b;
      SplitAfterFreePrefix(a[1..], b, c);
      var rest := Split(s[1..], c);
      assert rest == [a[1..]] + Split(b, c);
      assert s[0] == a[0] && a[0] != c;
      assert Split(s, c) == [[a[0]] + rest[0]] + rest[1..];
      assert [a[0]] + a[1..] == a;
    } else {
      assert s[0] == c && s[1..] == b;
    }
  }

  /** The decimal digit character for `d`. */
  function DigitChar(d: nat): (ch: char)
    requires d < 10
    ensures '0' <= ch <= '9'
    ensures (ch - '0') as nat == d
  {
    ('0' as int + d) as char
  }

  /** 10 to the power `k`. */
  function Pow10(k: nat): (p: nat)
    ensures p >= 1
  {
    if k == 0 then 1 else 10 * Pow10(k - 1)
  }

  /** True when every character of `s` is a decimal digit. */
  predicate AllDigits(s: string) {
    forall i :: 0 <= i < |s| ==> '0' <= s[i] <= '9'
  }

  /** The number a string of decimal digits denotes. */
  function DecimalValue(s: string): nat
    requires AllDigits(s)
  {
    if |s| == 0 then 0
    else DecimalValue(s[..|s| - 1]) * 10 + (s[|s| - 1] - '0') as nat
  }

  /**
   * `n` written in exactly `width` decimal digits, zero-padded on the left,
   * as `%02d`-style directives do; only the last `width` digits survive.
   */
  function Pad(n: nat, width: nat): (r: string)
    ensures |r| == width
    ensures AllDigits(r)
  {
    if width == 0 then "" else Pad(n / 10, width - 1) + [DigitChar(n % 10)]
  }

  /** Reading back a padded number gives the number, when it fits the width. */
  lemma {:induction false} PadDecimalValue(n: nat, width: nat)
    requires n < Pow10(width)
    ensures DecimalValue(Pad(n, width)) == n
  {
    if width > 0 {
      var r := Pad(n, width);
      assert r[..|r| - 1] == Pad(n / 10, width - 1);
      PadDecimalValue(n / 10, width - 1);
    }
  }

  /** `t in s` for strings: `t` occurs somewhere in `s` as a contiguous piece. */
  predicate IsSubstring(t: string, s: string)
    decreases |s|
  {
    t <= s || (|s| > 0 && IsSubstring(t, s[1..]))
  }
}

=== FILE: wrappers.dfy ===
/** Failure-compatible wrappers shared by the whole model. */
module Wrappers {

  /** A value that may be absent (Python's `None`). */
  datatype Option<+T> = None | Some(value: T)

  /** A computation that either yields a value or raises an exception. */
  datatype Result<+T, +E> = Ok(value: T) | Err(error: E) {

    predicate IsFailure() {
      Err?
    }

    function PropagateFailure<U>(): Result<U, E>
      requires Err?
    {
      Err(error)
    }

    function Extract(): T
      requires Ok?
    {
      value
    }
  }
}
